=== FILE: README.md ===
# PhotoNotes admin console: authorization core and dashboard rules

This project models the admin-authorization subsystem of the PhotoNotes
console in Dafny. That subsystem has three parts:

- the five privileged callables that grant and revoke the admin role, list
  users, look a user up by email and disable or enable a user;
- the client resolver that decides whether the signed-in user is an admin;
- the session the admin provider keeps, the admin page's gate, and the
  grant/revoke form.

It also models the pure list, filter and counting rules of the dashboard
screens:

- the user list with its disable toggle, search and Admin badge;
- the organization search/filter and its add, save and delete updates;
- the navigation highlight;
- the overdue follow-up counter and its badge;
- admin-versus-member scoping of projects and counters;
- the sign-in page's error classification.

Everything is pure functions over immutable datatypes. The principal store
is a sequence of records whose uids and emails are unique (`Principals.Valid`).
A remote call, a token refresh, a Firestore read and the user's
confirmation dialog are inputs:

- a forced token refresh is a `Result` of claims or a thrown value;
- the remote callable endpoint is a function from calls to results;
- a Firestore read is a snapshot plus the set of queries that fail;
- `addDoc`'s generated id, or its failure, is an `Option`;
- whether a write or delete committed is a flag;
- whether a handle (`functions`, `db`) exists is a `ready` flag.

Each handler returns the state it leaves together with the calls or writes
it issued. The contracts can therefore say "no remote call" and "nothing
else changes".

Modules follow the source files:

| module | file | models |
|---|---|---|
| `Callables`, `CallableProperties` | callables.dfy, callable_properties.dfy | functions/src/index.ts |
| `Principals` | principals.dfy | the identity provider's user records, as the callables read and write them |
| `AdminAuth` | admin_auth.dfy | src/app/admin/utils/adminAuth.ts |
| `AdminContext` | admin_context.dfy | src/app/admin/contexts/AdminContext.tsx |
| `AdminPage` | admin_page.dfy | src/app/admin/page.tsx |
| `AdminActions` | admin_actions.dfy | src/app/admin/components/AdminActions.tsx |
| `UserManagement` | user_management.dfy | src/app/admin/components/UserManagement.tsx |
| `Organizations` | organizations.dfy | src/app/admin/components/OrganizationManagement.tsx |
| `Firestore`, `Layout` | firestore.dfy, layout.dfy | src/app/protected/components/Layout.tsx |
| `ProtectedPage` | protected_page.dfy | src/app/protected/page.tsx |
| `Login` | login.dfy | src/app/page.tsx |
| `Js`, `Strings`, `Seqs`, `Wrappers` | js.dfy, strings.dfy, seqs.dfy, wrappers.dfy | JavaScript truthiness, `trim`, `toLowerCase`, `includes`, `filter` |

Behaviour of the code worth noting:

- **No supersession guard.** Nothing in the auth-state handler discards the
  result of an older resolution that a newer one overtakes. Each event is
  modelled as one atomic step, and no guard is claimed.
- **Sign-out does not reset the session.** It sets the user to null,
  `isAdmin` to false and `isLoading` to false.
- **`isAdmin` is stale while a new user resolves.** It keeps its previous
  value until the resolution settles. The page shows the spinner meanwhile
  (`AdminPage.ResolvingShowsSpinner`).
- **A missing functions handle is a plain error.** The facade throws
  `Error("Firebase not initialized")` without making a call.
- **`getUserByEmail` reports every lookup failure as `not-found`.**
- **`listAllUsers` falls back to 1000 for any falsy `maxResults`**,
  including 0.
- **Organization writes with a missing optional text always fail.** The
  database is created with plain `getFirestore(app)` (src/app/firebase.ts:26),
  so Firestore rejects a field whose value is `undefined`. `handleAdd` sends
  a blank description or contact email as `undefined`, and `handleSave`
  sends the edited organization's fields as they are. Such a write fails,
  the handler's `catch` swallows the error and the list stays as it was.
  In particular the add form as it first appears, with both optional texts
  empty, can never add an organization (`Organizations.DefaultFormNeverAdds`).
- **Grant and revoke replace the whole custom-claims object** with
  `{admin: b}`.
- **Server and client test the claim differently.** The server requires
  `admin === true`, but the client resolver accepts any truthy `admin`
  claim (`AdminAuth.TruthyClaimIsNotServerAdmin`). The user list's Admin
  badge uses the strict test (`UserManagement.BadgeStricterThanResolver`).

Modelling assumptions about code that is not part of this model:

- **Lookup failures.** The provider's lookup fails exactly when no record
  matches, and the error text is "There is no user record corresponding to
  the provided identifier."
- **Refreshed tokens** (`AdminAuth.FreshToken`). A refreshed token carries
  the record's current custom claims. Refreshing fails for a missing or
  disabled record.
- **Client errors.** A callable's `HttpsError` reaches the client as an
  `Error` carrying the server's message; the code is not carried.
- **Missing arguments.** An omitted facade argument is sent as `undefined`,
  which the client's encoding turns into `null` on the wire. The model's
  `Undefined` stands for both: the callables treat them alike, since both
  are falsy and neither is a string nor a boolean.
- **A request without data.** The callables' `data` is then `null`, and
  reading a field of it throws a TypeError whose message is
  "Cannot read properties of null (reading '<field>')". A thrown value that
  is not an `HttpsError` reaches the client as `internal` with the message
  "INTERNAL".
- **Paths and dates.** A note's document path is given already split at
  '/'. Dates are whole day numbers and `createdAt` is whole seconds.

## Model

| member | source | states |
|---|---|---|
| Principals.DetailsProjection | functions/src/index.ts:98-108 | two records give the same public details iff they agree on uid, email, verified and disabled flags, custom claims, creation and last sign-in time; nothing else is handed out |
| Principals.FindByEmail | functions/src/index.ts:27 | the lookup returns a position holding that email, and finds nothing iff no record has it |
| Principals.FindByUid | functions/src/index.ts:189 | the lookup by uid returns a position with that uid, and nothing iff no record has it |
| Principals.Update | functions/src/index.ts:28-30 | overwriting one record with one of the same uid and email keeps uids and emails unique and leaves every position's uid and email in place |
| Principals.UpdateChangesOnly | functions/src/index.ts:28-30 | in a valid store, writing the record found for a uid changes that record and no other |
| Principals.FindByEmailStable | functions/src/index.ts:27 | an update that keeps emails does not change what a later lookup by email finds |
| Principals.FindByUidStable | functions/src/index.ts:189 | an update that keeps uids does not change what a later lookup by uid finds |
| Callables.RequiredString | functions/src/index.ts:18-23 | the email/uid check passes iff the field is present, a string and non-empty |
| Callables.ChangeAdminRole | functions/src/index.ts:7-81 | permission-denied unless `admin === true`, then invalid-argument for a bad email, then internal with the role prefix iff no record has the email; on success the reply names the email and the found uid, the claims of that record (only) become exactly `{admin: b}`, and any error leaves the store unchanged |
| Callables.AddAdminRole | functions/src/index.ts:7-43 | the grant is the role change with `admin: true` and the message "Success! <email> has been made an admin." |
| Callables.RemoveAdminRole | functions/src/index.ts:46-81 | the revoke is the role change with `admin: false` and the message "Success! Admin role removed from <email>." |
| Callables.ListAllUsers | functions/src/index.ts:84-121 | never writes; permission-denied for non-admins; otherwise asks the provider for `maxResults` or 1000 when falsy and `pageToken` or undefined when falsy, and returns that page record by record projected to the public fields, with its page token, or internal with the provider's message |
| Callables.ProjectAll | functions/src/index.ts:98-108 | the listed users keep the page's count and order, each the projection of its record |
| Callables.GetUserByEmail | functions/src/index.ts:124-161 | never writes; permission-denied, then invalid-argument, then not-found iff no record has the email; otherwise the details of a record with that email |
| Callables.SetUserDisabled | functions/src/index.ts:164-204 | uid checked before `disabled` (which must be a boolean); internal iff no record has the uid; on success "User disabled/enabled successfully." with the same uid, and only that record's disabled flag changes |
| Callables.Dispatch | functions/src/index.ts:7-204 | only `listAllUsers` answers with a page, only `getUserByEmail` with one user's details, the other three with `{message, uid}`; a failed call never writes |
| Callables.Receive | functions/src/index.ts:7-204 | an object body goes to the callable; a null body is still refused for non-admins, and for admins fails with `internal` without writing: "Error listing users: ..." for `listAllUsers`, the runtime's "INTERNAL" for the other four |
| Callables.NullBodyIsNotMissingField | functions/src/index.ts:18 | without data an admin gets `internal`, while an object without the field gets `invalid-argument` |
| CallableProperties.PermissionCheckedFirst | functions/src/index.ts:10-15 | for each of the five callables a non-admin caller gets permission-denied, the store is unchanged, and neither the data, the store nor the provider affects the answer |
| CallableProperties.ReadOnlyCalls | functions/src/index.ts:93-153 | listing and looking up leave the store as it was |
| CallableProperties.DispatchKeepsValid | functions/src/index.ts:7-204 | no callable breaks the uniqueness of uids and emails |
| CallableProperties.ChangeAdminRoleIdempotent | functions/src/index.ts:25-35 | granting (revoking) twice gives the same store and the same answer as once |
| CallableProperties.RevokeAfterGrant | functions/src/index.ts:63-73 | revoking after granting leaves the store revoking alone leaves |
| CallableProperties.GrantThenLookup | functions/src/index.ts:142-153 | after a successful grant, looking the same email up returns the granted uid with claims exactly `{admin: true}` |
| CallableProperties.SetUserDisabledIdempotent | functions/src/index.ts:188-196 | setting the same disabled flag twice gives the same store and answer as once |
| AdminAuth.CheckIsAdmin | src/app/admin/utils/adminAuth.ts:30-41 | no user: false with no token request; a user: one forced refresh of that user's token, admin iff the refreshed claims' `admin` is truthy, and false whenever the refresh fails |
| AdminAuth.ServerAdminIsClientAdmin | src/app/admin/utils/adminAuth.ts:36 | claims the server accepts as admin are accepted by the resolver |
| AdminAuth.TruthyClaimIsNotServerAdmin | src/app/admin/utils/adminAuth.ts:36 | `admin: 1` makes the resolver say admin while every callable refuses it |
| AdminAuth.Invoke | src/app/admin/utils/adminAuth.ts:45-53 | without a functions handle: no call and `Error("Firebase not initialized")`; otherwise exactly one call and its result returned unchanged |
| AdminAuth.AddAdminRole | src/app/admin/utils/adminAuth.ts:44-54 | not ready: no call and the initialization error; ready: exactly one `addAdminRole` call with `{email}` and its result unchanged |
| AdminAuth.RemoveAdminRole | src/app/admin/utils/adminAuth.ts:57-67 | the same for `removeAdminRole` with `{email}` |
| AdminAuth.ListAllUsers | src/app/admin/utils/adminAuth.ts:70-80 | the same for `listAllUsers` with `{maxResults, pageToken}`, absent arguments sent as undefined |
| AdminAuth.GetUserByEmail | src/app/admin/utils/adminAuth.ts:83-93 | the same for `getUserByEmail` with `{email}` |
| AdminAuth.SetUserDisabled | src/app/admin/utils/adminAuth.ts:96-106 | the same for `setUserDisabled` with `{uid, disabled}` |
| AdminAuth.FacadeForwards | src/app/admin/utils/adminAuth.ts:44-106 | against the deployed callables, each wrapper's result is the callable of the same name applied to exactly its arguments, with an error passed on as its message |
| AdminAuth.RoleChangeVisibleAfterRefresh | src/app/admin/utils/adminAuth.ts:35-36 | after a successful grant (revoke), a forced refresh of the target's token makes the resolver say admin (not admin), provided the target is not disabled |
| AdminContext.BeginAuthChange | src/app/admin/contexts/AdminContext.tsx:45-46 | an auth event first records the user and sets loading, keeping the previous `isAdmin` |
| AdminContext.SettleAuthChange | src/app/admin/contexts/AdminContext.tsx:48-55 | then `isAdmin` becomes the resolver's answer, false for a signed-out user, and loading ends; the user stays |
| AdminContext.OnAuthStateChanged | src/app/admin/contexts/AdminContext.tsx:44-56 | after the handler the user is the event's, loading is over and `isAdmin` is the resolver's answer for that user |
| AdminContext.RefreshAdminStatus | src/app/admin/contexts/AdminContext.tsx:34-41 | `isAdmin` becomes the resolver's answer for the current user (false without one); user and loading flag unchanged |
| AdminContext.UseAdmin | src/app/admin/contexts/AdminContext.tsx:17-23 | outside a provider the hook throws "useAdmin must be used within an AdminProvider", inside it returns the session |
| AdminContext.RunKeepsNoAdminWithoutUser | src/app/admin/contexts/AdminContext.tsx:30-56 | no sequence of events leads to a settled session that says admin without a user |
| AdminContext.LoadingUntilFirstAuthEvent | src/app/admin/contexts/AdminContext.tsx:32-55 | the session is loading iff it started loading and only refreshes have happened |
| AdminContext.RefreshesKeepUser | src/app/admin/contexts/AdminContext.tsx:34-41 | refreshes never change the user |
| AdminContext.UserIsLastSignedIn | src/app/admin/contexts/AdminContext.tsx:44-46 | the user is the one of the last auth event, whatever refreshes follow |
| AdminContext.RunConcat | src/app/admin/contexts/AdminContext.tsx:43-59 | handling two event sequences in turn is handling their concatenation |
| AdminPage.Render | src/app/admin/page.tsx:28-47 | spinner iff loading; dashboard iff done loading with a user who is admin; Access Denied otherwise |
| AdminPage.Redirect | src/app/admin/page.tsx:16-26 | no redirect while loading; to "/" iff done and signed out; to "/protected" iff done, signed in and not admin |
| AdminPage.RedirectIffDenied | src/app/admin/page.tsx:16-45 | the page navigates away exactly when it shows Access Denied |
| AdminPage.ResolvingShowsSpinner | src/app/admin/page.tsx:28-30 | while an auth event resolves, a stale `isAdmin` shows the spinner and redirects nowhere |
| AdminPage.ReachableGate | src/app/admin/page.tsx:16-47 | in every session reachable from the initial one, the dashboard implies a signed-in admin, and a settled signed-out session is redirected to "/" |
| AdminActions.Settle | src/app/admin/components/AdminActions.tsx:23-36 | on success: the server's message, the email cleared, the session refreshed; on failure: `err.message` or the default, the email and session kept; loading false either way |
| AdminActions.HandleAddAdmin | src/app/admin/components/AdminActions.tsx:14-37 | a blank email changes nothing and calls nothing; otherwise one `addAdminRole` call with the trimmed email, or the initialization error without a call; the outcome is settled as `AdminActions.Settle` states, with "Failed to add admin role" as the default message |
| AdminActions.HandleRemoveAdmin | src/app/admin/components/AdminActions.tsx:39-67 | a blank email or a refused confirmation changes nothing; any call made was confirmed and carries the trimmed email; once confirmed, one `removeAdminRole` call with the trimmed email, or the initialization error without a call, settled as `AdminActions.Settle` states with "Failed to remove admin role" as the default |
| AdminActions.SentEmailIsValid | src/app/admin/components/AdminActions.tsx:22 | the email the form sends always passes the callables' email check and has no surrounding whitespace |
| UserManagement.LoadUsers | src/app/admin/components/UserManagement.tsx:28-40 | asks for page size 100 and no token, and makes no call at all before initialization (then showing the not-initialized error); shows the returned users or the error message ("Failed to load users" for a non-Error); loading ends; the search fields and the updating set are untouched |
| UserManagement.LoadUsersPageSize | src/app/admin/components/UserManagement.tsx:32 | served by the callable, that request reaches the provider with page size 100 and an undefined token |
| UserManagement.SetDisabledWhere | src/app/admin/components/UserManagement.tsx:66-72 | same length and order; entries with the uid get the new flag, the rest are unchanged |
| UserManagement.ToggleUserStatus | src/app/admin/components/UserManagement.tsx:60-90 | makes no call before initialization (users unchanged, the not-initialized error shown); the uid leaves the updating set either way; on success only matching entries flip and the search result changes only when its uid matches; on failure only the error changes; loading, the search email and the search spinner are untouched either way |
| UserManagement.ToggleTwiceRestores | src/app/admin/components/UserManagement.tsx:60-72 | toggling a user and toggling back restores the list |
| UserManagement.HandleSearch | src/app/admin/components/UserManagement.tsx:42-58 | a blank email is a no-op without a call; otherwise one lookup of the trimmed email, showing the user, or clearing the result with the fixed error; only the search result, the search spinner and the error change |
| UserManagement.SearchFindsRecord | src/app/admin/components/UserManagement.tsx:42-58 | served by the deployed callables for an admin, a search shows the details of the one record with the trimmed email, and when no record has it clears the result and shows "User not found or error occurred during search" |
| UserManagement.AdminBadge | src/app/admin/components/UserManagement.tsx:98 | a badge implies the user has custom claims that hold an `admin` entry |
| UserManagement.BadgeIsServerTest | src/app/admin/components/UserManagement.tsx:98 | the badge shows iff the record's claims pass the server's strict `admin === true` test |
| UserManagement.BadgeStricterThanResolver | src/app/admin/components/UserManagement.tsx:98 | a badged user resolves as admin, but a truthy non-true claim resolves as admin without a badge |
| UserManagement.GrantShowsBadge | src/app/admin/components/UserManagement.tsx:98 | a user just granted the role shows the badge when looked up |
| Organizations.FilteredOrganizations | src/app/admin/components/OrganizationManagement.tsx:148-154 | an order-preserving subsequence; an organization is kept iff its status matches (or the filter is all) and the lowercased term occurs in its lowercased name, description or contact email; every copy is kept, so the length equals the number of shown entries |
| Organizations.EmptySearchShowsAll | src/app/admin/components/OrganizationManagement.tsx:148-154 | an empty term with the all filter returns the whole list |
| Organizations.SearchIgnoresTermCase | src/app/admin/components/OrganizationManagement.tsx:149-151 | searching for the lowercased term gives the same result |
| Organizations.StatusFilterNarrows | src/app/admin/components/OrganizationManagement.tsx:152 | a status filter never shows more than the all filter |
| Organizations.OptionalText | src/app/admin/components/OrganizationManagement.tsx:114-115 | `trim() || undefined`: absent iff the text is blank, otherwise the trimmed non-empty text |
| Organizations.HandleAdd | src/app/admin/components/OrganizationManagement.tsx:106-136 | a blank name (or no database) writes nothing; otherwise one write with the trimmed name and normalised optional fields; when it yields an id, exactly the written fields with that id and the current time as `createdAt` are appended at the end, and the form resets to empty fields with status Active; a failed write, or one Firestore rejects because a blank description or contact email became `undefined`, changes nothing; search term, filter, selection and editor are untouched |
| Organizations.DefaultFormNeverAdds | src/app/admin/components/OrganizationManagement.tsx:114-115 | the form as first shown and as reset, with empty optional texts, never adds an organization, whatever name is typed and whatever the write would yield |
| Organizations.HandleEdit | src/app/admin/components/OrganizationManagement.tsx:60-63 | editing selects the organization and opens its copy; the list is unchanged |
| Organizations.ReplaceById | src/app/admin/components/OrganizationManagement.tsx:78-82 | same length and order; entries with the edited id become the edited copy, others unchanged |
| Organizations.HandleSave | src/app/admin/components/OrganizationManagement.tsx:65-89 | with an edit in progress, one write of name, status, description and contact email; once it commits, and the edited organization has both a description and a contact email, only the edited entries change and editor and selection close; a failed or rejected write changes nothing; the add form, search term and filter are untouched |
| Organizations.SaveNeedsBothTexts | src/app/admin/components/OrganizationManagement.tsx:71-76 | a committed save closes the editor exactly when the edited organization has both optional texts |
| Organizations.SaveKeepsIds | src/app/admin/components/OrganizationManagement.tsx:78-82 | saving never adds, drops or reorders organizations |
| Organizations.WithoutId | src/app/admin/components/OrganizationManagement.tsx:96 | an order-preserving subsequence without the id that keeps every other entry |
| Organizations.HandleDelete | src/app/admin/components/OrganizationManagement.tsx:91-104 | nothing without a database or confirmation; once the delete commits exactly the entries with that id go, and selection and editor close iff the selection was that organization; the add form, search term and filter are untouched |
| Organizations.CountRemoved | src/app/admin/components/OrganizationManagement.tsx:96 | delete shortens the list by the number of entries with that id |
| Organizations.AddThenDelete | src/app/admin/components/OrganizationManagement.tsx:96-123 | deleting an organization just added (with both optional texts filled in) under a fresh id restores the list |
| Firestore.FindUserDoc | src/app/protected/components/Layout.tsx:70-71 | the first document with the uid, or none iff no document has it |
| Firestore.MembershipOf | src/app/protected/components/Layout.tsx:70-78 | read failed iff the user read fails; otherwise no organization iff there is no document or the first one names none (missing field or empty id), and a member's organization is the one that document names |
| Firestore.DocumentDecidesMembership | src/app/protected/components/Layout.tsx:70-78 | a first user document that names an organization makes the user a member of exactly it |
| Firestore.InPhotoKey | src/app/protected/components/Layout.tsx:178-187 | a note read from a photo's collection is keyed by that photo's segments 1, 3 and 5 |
| Layout.IsActive | src/app/protected/components/Layout.tsx:284-289 | an active entry's path is a prefix of the current path, and every entry is active on its own path |
| Layout.ActiveEntries | src/app/protected/components/Layout.tsx:284-289 | a sub-page's entry is active on every deeper path while the dashboard entry is active only on "/protected" itself |
| Layout.IsAdminUser | src/app/protected/components/Layout.tsx:61 | the counters treat the user as admin iff the refreshed token's `admin` claim is truthy |
| Layout.ActiveProjectsCount | src/app/protected/components/Layout.tsx:57-89 | admins get the number of Active projects everywhere, members that of their organization, no organization or a failed read null |
| Layout.TeamMembersCount | src/app/protected/components/Layout.tsx:111-143 | admins get the number of user documents, members the users of their organization, no organization or a failed read null |
| Layout.FollowUpNotesCount | src/app/protected/components/Layout.tsx:91-109 | the number of notes assigned to the user, or null on failure |
| Layout.MemberCountsThemselves | src/app/protected/components/Layout.tsx:124-136 | a member's team counter is at least 1, because their own user document names their organization |
| Layout.MemberCountsBounded | src/app/protected/components/Layout.tsx:63-84 | a member's counts never exceed an admin's in the same database |
| Layout.LatestIndex | src/app/protected/components/Layout.tsx:203-213 | none iff no note has a due date; otherwise the first note with a due date whose `createdAt` (null as 0) is greatest |
| Layout.LatestUnique | src/app/protected/components/Layout.tsx:209-213 | only one position is the head of the stable newest-first sort |
| Layout.MostRecentDueDate | src/app/protected/components/Layout.tsx:203-216 | the due date of that newest note, none iff no note has one |
| Layout.IsOverdueOrDueToday | src/app/protected/components/Layout.tsx:218-228 | no due date is never overdue, and a note due today is |
| Layout.UnstampedNotesIgnored | src/app/protected/components/Layout.tsx:185-189 | notes stored without `createdAt` are not read by the ordered photo query, so a photo whose notes all lack it has no newest due date and none of its notes counts |
| Layout.OverdueNotesCount | src/app/protected/components/Layout.tsx:146-258 | 0 for a member without an organization or on a failed read; otherwise the assigned notes that are Open and whose photo's newest due date is today or earlier; never more than the assigned notes |
| Layout.OverdueOnlyOpen | src/app/protected/components/Layout.tsx:240-243 | only notes with status exactly "Open" are counted |
| Layout.OverdueGrowsWithTime | src/app/protected/components/Layout.tsx:218-228 | a later day never counts fewer overdue notes |
| Layout.SamePhotoSameVerdict | src/app/protected/components/Layout.tsx:245-250 | every Open note of one photo gets the same verdict |
| Layout.NewestDueDateDecides | src/app/protected/components/Layout.tsx:246-250 | a note whose own due date is later still counts when its photo's newest note is overdue |
| Layout.BadgeLabel | src/app/protected/components/Layout.tsx:388-391 | hidden iff 0; digits reading back as the count for 1 to 99; "99+" above |
| Layout.FindProject | src/app/protected/components/Layout.tsx:313 | the first project with the id, or none iff none has it |
| Layout.ProjectLabel | src/app/protected/components/Layout.tsx:313 | "All Projects" for 'all' and for an unknown id; otherwise the name of the first project with the selected id, or "All Projects" when that name is empty |
| ProtectedPage.ToProjects | src/app/protected/page.tsx:81-84 | one listed project per document, in order, with the document's id and fields |
| ProtectedPage.FetchProjects | src/app/protected/page.tsx:52-125 | admins: every project and the organizations collection's size; members: their organization's projects and 1; no organization: none and 1; failed user read: none and the count kept; loading ends |
| ProtectedPage.MemberSeesOwnOrganization | src/app/protected/page.tsx:104-117 | everything a member is shown belongs to their organization, and all of it is shown when the read succeeds |
| ProtectedPage.AdminSeesEverything | src/app/protected/page.tsx:76-86 | an admin is shown every project document in order |
| ProtectedPage.Recent | src/app/protected/page.tsx:243 | the first min(5, n) projects |
| ProtectedPage.ActiveCard | src/app/protected/page.tsx:178 | the number of listed projects with status exactly "Active", 0 iff none has it |
| ProtectedPage.ReviewCard | src/app/protected/page.tsx:216 | the number of listed projects with status exactly "Review", 0 iff none has it |
| ProtectedPage.TotalCard | src/app/protected/page.tsx:201 | the number of listed projects; no status card can exceed it |
| ProtectedPage.CardsWithinTotal | src/app/protected/page.tsx:178-216 | the Active and Review cards together never exceed Total |
| Login.ReadableErrorMessage | src/app/page.tsx:20-27 | one of six outputs; the first code the text contains decides; the fallback iff it contains none |
| Login.ProviderNotFoundIsReadable | src/app/page.tsx:21 | the provider's user-not-found error reads "No account found with this email address" |
| Login.ShortTextFallback | src/app/page.tsx:26 | text shorter than every code reads as the fallback |
| Login.Begin | src/app/page.tsx:31-32 | submitting sets loading and clears the previous error |
| Login.HandleSubmit | src/app/page.tsx:29-43 | one sign-in attempt with the form's credentials; success iff it redirects to "/protected"; failure stores `err.message` or "Login failed"; loading false afterwards |
| Login.ShownError | src/app/page.tsx:149-166 | a banner iff the error is non-empty, showing its readable form |
| Login.NonErrorShowsFallback | src/app/page.tsx:38 | a thrown non-Error shows the fallback message |
| Login.EmptyMessageShowsNothing | src/app/page.tsx:38-39 | an Error with an empty message leaves no banner |
| Strings.Trim | src/app/admin/components/AdminActions.tsx:16 | trimmed, an infix of the input whose cut-off ends are whitespace only, and empty iff the input is blank |
| Strings.Lower | src/app/admin/components/OrganizationManagement.tsx:149-151 | same length, no upper-case letter left, every other character kept |
| Strings.Contains | src/app/admin/components/OrganizationManagement.tsx:149-151 | a string includes each of its prefixes, and nothing longer than itself |
| Strings.ContainsIffOccurs | src/app/admin/components/OrganizationManagement.tsx:149-151 | `includes` holds iff the text occurs at some position |
| Js.MessageOrDefault | src/app/admin/components/AdminActions.tsx:31 | `err?.message || fallback`: the message when it is non-empty, the fallback otherwise |

## Left out

- Firebase SDK internals are not modelled: token issuance, `setCustomUserClaims`, `listUsers` pagination, Firestore ordering and indexing. They are foreign calls whose code is not part of this model, and they appear as inputs. In particular the order `orderBy` imposes is left out: a query returns documents in snapshot order. Its filtering is kept: the photo's notes query leaves out notes that lack `createdAt` (`Layout.UnstampedNotesIgnored`).
- Async interleaving is not modelled. Each handler and each auth-state event runs as one step, and the code has no supersession guard to model.
- The first-admin bootstrap bypass is not modelled. It exists only as a comment; the enforced check is modelled.
- Dates are whole day numbers and timestamps whole seconds. Time zones, `toLocaleDateString` and `setHours(0, 0, 0, 0)` are abstracted into the day number.
- `toLowerCase` is modelled on ASCII letters only, and `trim` on ASCII whitespace plus no-break space; Unicode case mapping and the full Unicode whitespace set are not modelled.
- `fetchOrganizations`, the initial load of the organization list, is left out. It is a Firestore read ordered by name, with no rule beyond that ordering.
- Rendering, CSS, routing side effects, navigation delays, menus and `console` logging are not modelled.
- src/app/firebase.ts enters the model only through its database setting (the rejection of `undefined` fields noted above); the rest of it, next.config.ts, jest.setup.js, the debug pages, the to-do placeholder, the setup-admin page, AdminDashboard.tsx and ProjectFilterContext.tsx are not part of this model. They hold configuration, diagnostics or thin UI around calls already modelled.
- The project selector's options come from ProjectFilterContext.tsx, which is not part of this model. `Layout.ProjectLabel` takes the options as an input.
- Callables.ListAllUsers: the JavaScript type of `maxResults` and `pageToken` is not checked by the callable. Whatever truthy value arrives is passed to the provider, and the provider's reaction is the input oracle.
- AdminActions.HandleRemoveAdmin: the confirmation dialog's text is not modelled; only the operator's answer is an input.

=== FILE: admin_actions.dfy ===
/** The grant/revoke form: blank check, confirmation for revoke, the trimmed
    email sent to the facade, the message shown, and the session refresh
    after a success. */
module AdminActions {
  import opened Wrappers
  import opened Js
  import opened Strings
  import opened AdminAuth
  import opened AdminContext
  import Callables

  /** `'success' | 'error'`. */
  datatype Tone = Success | Failure

  datatype Message = Message(tone: Tone, text: string)

  datatype Form = Form(email: string, loading: bool, message: Option<Message>)

  /** The form and session after a submission, and the remote calls made. */
  datatype Submission = Submission(form: Form, session: Session, calls: seq<RemoteCall>)

  /** `result.message` of a `{message, uid}` reply; any other reply shape,
      which these callables never send, reads as empty text. */
  function ReplyMessage(reply: Callables.Reply): string {
    if reply.Ack? then reply.message else ""
  }

  /** What follows a facade call: on success show the server's message,
      clear the email and refresh the session; on failure show the error's
      message (or `fallback`) and keep the email. Loading ends either way. */
  function Settle(form: Form, session: Session, call: FacadeCall, fallback: string,
                  refreshed: Result<Object, Thrown>): (r: Submission)
    ensures r.calls == call.calls && !r.form.loading
    ensures call.result.Ok? ==>
      r.form.message == Some(Message(Success, ReplyMessage(call.result.value))) &&
      r.form.email == "" && r.session == RefreshAdminStatus(session, refreshed)
    ensures call.result.Err? ==>
      r.form.message == Some(Message(Failure, MessageOrDefault(call.result.error, fallback))) &&
      r.form.email == form.email && r.session == session
  {
    match call.result
    case Ok(reply) =>
      Submission(Form("", false, Some(Message(Success, ReplyMessage(reply)))),
                 RefreshAdminStatus(session, refreshed), call.calls)
    case Err(t) =>
      Submission(Form(form.email, false, Some(Message(Failure, MessageOrDefault(t, fallback)))),
                 session, call.calls)
  }

  /** `handleAddAdmin`. */
  function HandleAddAdmin(form: Form, session: Session, ready: bool, remote: Remote,
                          refreshed: Result<Object, Thrown>): (r: Submission)
    ensures Blank(form.email) ==> r == Submission(form, session, [])
    ensures !Blank(form.email) ==>
      !r.form.loading &&
      (ready ==> r.calls == [RemoteCall("addAdminRole", map["email" := Str(Trim(form.email))])]) &&
      (!ready ==>
        r.calls == [] && r.form.message == Some(Message(Failure, NotInitialized)) && r.form.email == form.email)
    ensures !Blank(form.email) ==>
      r == Settle(form, session, AdminAuth.AddAdminRole(ready, Trim(form.email), remote),
                  "Failed to add admin role", refreshed)
  {
    if Blank(form.email) then Submission(form, session, [])
    else Settle(form, session, AdminAuth.AddAdminRole(ready, Trim(form.email), remote),
                "Failed to add admin role", refreshed)
  }

  /** `handleRemoveAdmin`: also nothing happens unless the operator confirms. */
  function HandleRemoveAdmin(form: Form, session: Session, confirmed: bool, ready: bool, remote: Remote,
                             refreshed: Result<Object, Thrown>): (r: Submission)
    ensures Blank(form.email) || !confirmed ==> r == Submission(form, session, [])
    ensures r.calls != [] ==>
      confirmed && !Blank(form.email) &&
      r.calls == [RemoteCall("removeAdminRole", map["email" := Str(Trim(form.email))])]
    ensures !Blank(form.email) && confirmed ==>
      !r.form.loading &&
      (ready ==> r.calls == [RemoteCall("removeAdminRole", map["email" := Str(Trim(form.email))])]) &&
      (!ready ==>
        r.calls == [] && r.form.message == Some(Message(Failure, NotInitialized)) && r.form.email == form.email)
    ensures !Blank(form.email) && confirmed ==>
      r == Settle(form, session, AdminAuth.RemoveAdminRole(ready, Trim(form.email), remote),
                  "Failed to remove admin role", refreshed)
  {
    if Blank(form.email) || !confirmed then Submission(form, session, [])
    else Settle(form, session, AdminAuth.RemoveAdminRole(ready, Trim(form.email), remote),
                "Failed to remove admin role", refreshed)
  }

  /** What the form sends always passes the callables' email check: it is a
      non-empty string with no whitespace at either end. */
  lemma SentEmailIsValid(form: Form, session: Session, confirmed: bool, ready: bool, remote: Remote,
                         refreshed: Result<Object, Thrown>)
    ensures var a := HandleAddAdmin(form, session, ready, remote, refreshed);
      forall c :: c in a.calls ==>
        Callables.RequiredString(c.data, "email").Some? &&
        Trimmed(Callables.RequiredString(c.data, "email").value)
    ensures var d := HandleRemoveAdmin(form, session, confirmed, ready, remote, refreshed);
      forall c :: c in d.calls ==>
        Callables.RequiredString(c.data, "email").Some? &&
        Trimmed(Callables.RequiredString(c.data, "email").value)
  {
    if !Blank(form.email) {
      var e := Trim(form.email);
      assert Get(map["email" := Str(e)], "email") == Str(e);
    }
  }
}

=== FILE: admin_auth.dfy ===
/** The client's admin-status resolver and its facade over the five
    callables. Remote effects are inputs: the resolver receives what the
    forced token refresh produced, and the facade receives the remote
    endpoint as a function from a call to its reply. */
module AdminAuth {
  import opened Wrappers
  import opened Js
  import opened Principals
  import Callables

  /** The signed-in user handle the client holds. */
  datatype User = User(uid: string, email: Option<string>)

  /** A request for the user's identity token; `forceRefresh` bypasses the
      local token cache. */
  datatype TokenRequest = TokenRequest(uid: string, forceRefresh: bool)

  /** The resolver's answer together with the token requests it made. */
  datatype AdminCheck = AdminCheck(isAdmin: bool, requests: seq<TokenRequest>)

  /** `checkIsAdmin(user)`. `refreshed` is what `getIdTokenResult(true)`
      produces for the user: the claims of a newly issued token, or what it
      threw. The answer is the truthiness of the `admin` claim; a missing
      user asks for nothing, and a failed refresh reads as "not admin". */
  function CheckIsAdmin(user: Option<User>, refreshed: Result<Object, Thrown>): (r: AdminCheck)
    ensures user.None? ==> r == AdminCheck(false, [])
    ensures user.Some? ==> r.requests == [TokenRequest(user.value.uid, true)]
    ensures refreshed.Err? ==> !r.isAdmin
    ensures r.isAdmin ==> user.Some? && refreshed.Ok? && "admin" in refreshed.value
    ensures user.Some? && refreshed.Ok? ==> (r.isAdmin <==> Truthy(Get(refreshed.value, "admin")))
  {
    match user
    case None => AdminCheck(false, [])
    case Some(u) =>
      var isAdmin := match refreshed
        case Ok(claims) => Truthy(Get(claims, "admin"))
        case Err(_) => false;
      AdminCheck(isAdmin, [TokenRequest(u.uid, true)])
  }

  /** Whatever the server's check accepts, the client's check accepts too:
      `admin === true` is truthy. */
  lemma ServerAdminIsClientAdmin(u: User, claims: Object)
    requires Callables.CallerIsAdmin(Callables.CallContext(Some(claims)))
    ensures CheckIsAdmin(Some(u), Ok(claims)).isAdmin
  {
  }

  /** The converse fails: a truthy claim that is not the boolean `true`
      passes the client's check but not the server's. */
  lemma TruthyClaimIsNotServerAdmin(u: User)
    ensures var claims := map["admin" := Num(1)];
      CheckIsAdmin(Some(u), Ok(claims)).isAdmin &&
      !Callables.CallerIsAdmin(Callables.CallContext(Some(claims)))
  {
    var claims := map["admin" := Num(1)];
    assert Get(claims, "admin") == Num(1);
  }

  /** The identity provider's forced refresh, as this model assumes it: a
      new token carries the record's current custom claims (none at all when
      the record has none); refreshing fails for a missing or disabled
      record. */
  function FreshToken(store: Store, uid: string): (r: Result<Object, Thrown>)
    ensures r.Ok? ==>
      exists i :: 0 <= i < |store| && store[i].uid == uid && !store[i].disabled &&
        r.value == store[i].customClaims.GetOr(map[])
  {
    match FindByUid(store, uid)
    case None => Err(Error("Firebase: Error (auth/user-not-found)."))
    case Some(i) =>
      if store[i].disabled then Err(Error("Firebase: Error (auth/user-disabled)."))
      else Ok(store[i].customClaims.GetOr(map[]))
  }

  /** A call to a named callable with its request data. */
  datatype RemoteCall = RemoteCall(name: string, data: Object)

  /** The remote endpoint: a call and the reply data or what it threw. */
  type Remote = RemoteCall -> Result<Callables.Reply, Thrown>

  /** The remote calls a facade function made and what it returned or
      threw. */
  datatype FacadeCall = FacadeCall(calls: seq<RemoteCall>, result: Result<Callables.Reply, Thrown>)

  const NotInitialized := "Firebase not initialized"

  /** The common shape of the five wrappers: refuse when the functions
      handle is missing, otherwise make exactly one call and pass its reply or
      failure through unchanged. */
  function Invoke(ready: bool, call: RemoteCall, remote: Remote): (r: FacadeCall)
    ensures !ready ==> r.calls == [] && r.result == Err(Error(NotInitialized))
    ensures ready ==> r.calls == [call] && r.result == remote(call)
  {
    if !ready then FacadeCall([], Err(Error(NotInitialized)))
    else FacadeCall([call], remote(call))
  }

  function AddAdminRole(ready: bool, email: string, remote: Remote): (r: FacadeCall)
    ensures !ready ==> r == FacadeCall([], Err(Error(NotInitialized)))
    ensures ready ==> r.calls == [RemoteCall("addAdminRole", map["email" := Str(email)])] && r.result == remote(r.calls[0])
  {
    Invoke(ready, RemoteCall("addAdminRole", map["email" := Str(email)]), remote)
  }

  function RemoveAdminRole(ready: bool, email: string, remote: Remote): (r: FacadeCall)
    ensures !ready ==> r == FacadeCall([], Err(Error(NotInitialized)))
    ensures ready ==> r.calls == [RemoteCall("removeAdminRole", map["email" := Str(email)])] && r.result == remote(r.calls[0])
  {
    Invoke(ready, RemoteCall("removeAdminRole", map["email" := Str(email)]), remote)
  }

  /** An optional argument: `undefined` when left out. */
  function OptNum(n: Option<int>): Value {
    match n
    case Some(k) => Num(k)
    case None => Undefined
  }

  function OptStr(s: Option<string>): Value {
    match s
    case Some(t) => Str(t)
    case None => Undefined
  }

  function ListAllUsers(ready: bool, maxResults: Option<int>, pageToken: Option<string>, remote: Remote): (r: FacadeCall)
    ensures !ready ==> r == FacadeCall([], Err(Error(NotInitialized)))
    ensures ready ==>
      r.calls == [RemoteCall("listAllUsers", map["maxResults" := OptNum(maxResults), "pageToken" := OptStr(pageToken)])] &&
      r.result == remote(r.calls[0])
  {
    Invoke(ready, RemoteCall("listAllUsers",
      map["maxResults" := OptNum(maxResults), "pageToken" := OptStr(pageToken)]), remote)
  }

  function GetUserByEmail(ready: bool, email: string, remote: Remote): (r: FacadeCall)
    ensures !ready ==> r == FacadeCall([], Err(Error(NotInitialized)))
    ensures ready ==> r.calls == [RemoteCall("getUserByEmail", map["email" := Str(email)])] && r.result == remote(r.calls[0])
  {
    Invoke(ready, RemoteCall("getUserByEmail", map["email" := Str(email)]), remote)
  }

  function SetUserDisabled(ready: bool, uid: string, disabled: bool, remote: Remote): (r: FacadeCall)
    ensures !ready ==> r == FacadeCall([], Err(Error(NotInitialized)))
    ensures ready ==> r.calls == [RemoteCall("setUserDisabled", map["uid" := Str(uid), "disabled" := Bool(disabled)])] && r.result == remote(r.calls[0])
  {
    Invoke(ready, RemoteCall("setUserDisabled", map["uid" := Str(uid), "disabled" := Bool(disabled)]), remote)
  }

  /** How a callable's typed error reaches the client: an `Error` carrying
      the server's message. */
  function ToClient(result: Result<Callables.Reply, Callables.HttpsError>): Result<Callables.Reply, Thrown> {
    match result
    case Ok(reply) => Ok(reply)
    case Err(e) => Err(Error(e.message))
  }

  /** The deployed callables behind the remote endpoint, for a caller
      presenting `ctx` (calls to any other name are not modelled). */
  function Serve(store: Store, ctx: Callables.CallContext, listUsers: Callables.ListUsers): Remote {
    (call: RemoteCall) =>
      if Callables.IsCallable(call.name)
      then ToClient(Callables.Dispatch(store, ctx, call.name, call.data, listUsers).result)
      else Err(NonError)
  }

  /** Each wrapper reaches the callable of the same name with exactly its
      arguments, and hands back the callable's reply, or its error message,
      unchanged. */
  lemma FacadeForwards(store: Store, ctx: Callables.CallContext, listUsers: Callables.ListUsers,
                       email: string, uid: string, disabled: bool,
                       maxResults: Option<int>, pageToken: Option<string>)
    ensures var remote := Serve(store, ctx, listUsers);
      && AddAdminRole(true, email, remote).result
         == ToClient(Callables.AddAdminRole(store, ctx, map["email" := Str(email)]).result)
      && RemoveAdminRole(true, email, remote).result
         == ToClient(Callables.RemoveAdminRole(store, ctx, map["email" := Str(email)]).result)
      && GetUserByEmail(true, email, remote).result
         == ToClient(Callables.GetUserByEmail(store, ctx, map["email" := Str(email)]).result)
      && SetUserDisabled(true, uid, disabled, remote).result
         == ToClient(Callables.SetUserDisabled(store, ctx, map["uid" := Str(uid), "disabled" := Bool(disabled)]).result)
      && ListAllUsers(true, maxResults, pageToken, remote).result
         == ToClient(Callables.ListAllUsers(store, ctx,
              map["maxResults" := OptNum(maxResults), "pageToken" := OptStr(pageToken)], listUsers).result)
  {
    var remote := Serve(store, ctx, listUsers);
    ServedCall(store, ctx, listUsers, RemoteCall("addAdminRole", map["email" := Str(email)]));
    ServedCall(store, ctx, listUsers, RemoteCall("removeAdminRole", map["email" := Str(email)]));
    ServedCall(store, ctx, listUsers, RemoteCall("getUserByEmail", map["email" := Str(email)]));
    ServedCall(store, ctx, listUsers,
      RemoteCall("setUserDisabled", map["uid" := Str(uid), "disabled" := Bool(disabled)]));
    ServedCall(store, ctx, listUsers,
      RemoteCall("listAllUsers", map["maxResults" := OptNum(maxResults), "pageToken" := OptStr(pageToken)]));
  }

  /** A call to a deployed name is answered by that callable. */
  lemma ServedCall(store: Store, ctx: Callables.CallContext, listUsers: Callables.ListUsers, call: RemoteCall)
    requires Callables.IsCallable(call.name)
    ensures Serve(store, ctx, listUsers)(call)
         == ToClient(Callables.Dispatch(store, ctx, call.name, call.data, listUsers).result)
  {
  }

  /** After a successful grant or revoke, a forced refresh of the target's
      token makes the resolver report the new role (as long as the target can
      still refresh, that is, is not disabled). */
  lemma RoleChangeVisibleAfterRefresh(st: Store, ctx: Callables.CallContext, data: Object, grant: bool, u: User)
    requires Valid(st)
    requires Callables.ChangeAdminRole(st, ctx, data, grant).result.Ok?
    requires u.uid == Callables.ChangeAdminRole(st, ctx, data, grant).result.value.uid
    requires forall i :: 0 <= i < |st| && st[i].uid == u.uid ==> !st[i].disabled
    ensures CheckIsAdmin(Some(u), FreshToken(Callables.ChangeAdminRole(st, ctx, data, grant).store, u.uid)).isAdmin == grant
  {
    var st' := Callables.ChangeAdminRole(st, ctx, data, grant).store;
    var i := FindByUid(st', u.uid).value;
    assert st'[i] == Callables.WithClaims(Callables.AdminClaims(grant))(st[i]);
    assert Get(Callables.AdminClaims(grant), "admin") == Bool(grant);
  }
}

=== FILE: admin_context.dfy ===
/** The admin session the provider component keeps: who is signed in, whether
    they are an admin, and whether that is still being worked out. Each
    auth-state event is handled as one step (the source has no guard against
    a later event overtaking an earlier one, and none is modelled). */
module AdminContext {
  import opened Wrappers
  import opened Js
  import opened AdminAuth

  datatype Session = Session(user: Option<User>, isAdmin: bool, isLoading: bool)

  /** The state before any auth event: nobody, not admin, loading. */
  const Initial := Session(None, false, true)

  /** First half of the auth-state handler: record the user and start
      loading. The previous `isAdmin` is still in place. */
  function BeginAuthChange(s: Session, user: Option<User>): (r: Session)
    ensures r.user == user && r.isLoading && r.isAdmin == s.isAdmin
  {
    Session(user, s.isAdmin, true)
  }

  /** Second half: set `isAdmin` (false without asking when signed out) and
      stop loading. */
  function SettleAuthChange(s: Session, refreshed: Result<Object, Thrown>): (r: Session)
    ensures r.user == s.user && !r.isLoading
    ensures r.isAdmin == CheckIsAdmin(s.user, refreshed).isAdmin
    ensures s.user.None? ==> !r.isAdmin
  {
    var isAdmin := if s.user.Some? then CheckIsAdmin(s.user, refreshed).isAdmin else false;
    s.(isAdmin := isAdmin, isLoading := false)
  }

  /** The whole handler for one auth-state event. */
  function OnAuthStateChanged(s: Session, user: Option<User>, refreshed: Result<Object, Thrown>): (r: Session)
    ensures r.user == user && !r.isLoading
    ensures r.isAdmin == CheckIsAdmin(user, refreshed).isAdmin
  {
    SettleAuthChange(BeginAuthChange(s, user), refreshed)
  }

  /** `refreshAdminStatus`: recompute `isAdmin` for the current user, false
      when nobody is signed in; `user` and `isLoading` stay. */
  function RefreshAdminStatus(s: Session, refreshed: Result<Object, Thrown>): (r: Session)
    ensures r.user == s.user && r.isLoading == s.isLoading
    ensures r.isAdmin == CheckIsAdmin(s.user, refreshed).isAdmin
  {
    if s.user.Some? then s.(isAdmin := CheckIsAdmin(s.user, refreshed).isAdmin)
    else s.(isAdmin := false)
  }

  /** `useAdmin`: the session, or an error outside a provider. */
  function UseAdmin(provided: Option<Session>): (r: Result<Session, Thrown>)
    ensures provided.None? <==> r == Err(Error("useAdmin must be used within an AdminProvider"))
    ensures provided.Some? ==> r == Ok(provided.value)
  {
    match provided
    case None => Err(Error("useAdmin must be used within an AdminProvider"))
    case Some(s) => Ok(s)
  }

  /** What can happen to a session: an auth-state event, or an explicit
      refresh; each carries what the forced token refresh produced. */
  datatype Event =
    | AuthStateChanged(user: Option<User>, refreshed: Result<Object, Thrown>)
    | Refresh(refreshed: Result<Object, Thrown>)

  function Step(s: Session, e: Event): Session {
    match e
    case AuthStateChanged(u, t) => OnAuthStateChanged(s, u, t)
    case Refresh(t) => RefreshAdminStatus(s, t)
  }

  function Run(s: Session, es: seq<Event>): Session
    decreases |es|
  {
    if es == [] then s else Run(Step(s, es[0]), es[1..])
  }

  /** A session that has finished loading never says "admin" without a
      user. */
  predicate NoAdminWithoutUser(s: Session) {
    !s.isLoading && s.user.None? ==> !s.isAdmin
  }

  /** Every session reachable from the initial one keeps that invariant. */
  lemma {:induction false} RunKeepsNoAdminWithoutUser(s: Session, es: seq<Event>)
    requires NoAdminWithoutUser(s)
    ensures NoAdminWithoutUser(Run(s, es))
    decreases |es|
  {
    if es != [] {
      RunKeepsNoAdminWithoutUser(Step(s, es[0]), es[1..]);
    }
  }

  /** Loading lasts until the first auth-state event and never comes back. */
  lemma {:induction false} LoadingUntilFirstAuthEvent(s: Session, es: seq<Event>)
    ensures Run(s, es).isLoading <==>
      s.isLoading && forall i :: 0 <= i < |es| ==> es[i].Refresh?
    decreases |es|
  {
    if es != [] {
      LoadingUntilFirstAuthEvent(Step(s, es[0]), es[1..]);
      assert forall i :: 1 <= i < |es| ==> es[1..][i - 1] == es[i];
    }
  }

  /** Refreshes never change who is signed in. */
  lemma {:induction false} RefreshesKeepUser(s: Session, es: seq<Event>)
    requires forall i :: 0 <= i < |es| ==> es[i].Refresh?
    ensures Run(s, es).user == s.user
    decreases |es|
  {
    if es != [] {
      RefreshesKeepUser(Step(s, es[0]), es[1..]);
    }
  }

  /** The user is the one of the last auth-state event, whatever refreshes
      follow it. */
  lemma UserIsLastSignedIn(s: Session, pre: seq<Event>, u: Option<User>, t: Result<Object, Thrown>, post: seq<Event>)
    requires forall i :: 0 <= i < |post| ==> post[i].Refresh?
    ensures Run(s, pre + [AuthStateChanged(u, t)] + post).user == u
  {
    RunConcat(s, pre, [AuthStateChanged(u, t)] + post);
    assert pre + [AuthStateChanged(u, t)] + post == pre + ([AuthStateChanged(u, t)] + post);
    var m := Run(s, pre);
    assert ([AuthStateChanged(u, t)] + post)[1..] == post;
    RefreshesKeepUser(Step(m, AuthStateChanged(u, t)), post);
  }

  /** Running two event sequences one after the other. */
  lemma {:induction false} RunConcat(s: Session, a: seq<Event>, b: seq<Event>)
    ensures Run(s, a + b) == Run(Run(s, a), b)
    decreases |a|
  {
    if a != [] {
      assert (a + b)[1..] == a[1..] + b;
      RunConcat(Step(s, a[0]), a[1..], b);
    } else {
      assert a + b == b;
    }
  }
}

=== FILE: admin_page.dfy ===
/** The admin page's access gate: what it shows and where it sends the
    visitor, for each session state. */
module AdminPage {
  import opened Wrappers
  import opened AdminContext

  datatype View = Spinner | AccessDenied | Dashboard

  /** What the page renders. */
  function Render(s: Session): (v: View)
    ensures v == Spinner <==> s.isLoading
    ensures v == Dashboard <==> !s.isLoading && s.user.Some? && s.isAdmin
  {
    if s.isLoading then Spinner
    else if s.user.None? || !s.isAdmin then AccessDenied
    else Dashboard
  }

  /** Where the page's effect navigates to, if anywhere: the login page
      without a user, the member area for a non-admin, nowhere while
      loading. */
  function Redirect(s: Session): (r: Option<string>)
    ensures s.isLoading ==> r.None?
    ensures r == Some("/") <==> !s.isLoading && s.user.None?
    ensures r == Some("/protected") <==> !s.isLoading && s.user.Some? && !s.isAdmin
    ensures r.Some? ==> r.value == "/" || r.value == "/protected"
  {
    if s.isLoading then None
    else if s.user.None? then Some("/")
    else if !s.isAdmin then Some("/protected")
    else None
  }

  /** The page redirects exactly when it shows "Access Denied". */
  lemma RedirectIffDenied(s: Session)
    ensures Redirect(s).Some? <==> Render(s) == AccessDenied
  {
  }

  /** While an auth event is being resolved, a stale `isAdmin` from the
      previous user never opens the dashboard. */
  lemma ResolvingShowsSpinner(s: Session, u: Option<AdminAuth.User>)
    ensures Render(BeginAuthChange(s, u)) == Spinner
    ensures Redirect(BeginAuthChange(s, u)).None?
  {
  }

  /** In every session reachable by events from the initial one, the
      dashboard implies a signed-in admin, and a signed-out visitor is sent
      to the login page. */
  lemma ReachableGate(es: seq<Event>)
    ensures var s := Run(Initial, es);
      (Render(s) == Dashboard ==> s.user.Some? && s.isAdmin) &&
      (!s.isLoading && s.user.None? ==>
        !s.isAdmin && Redirect(s) == Some("/") && Render(s) == AccessDenied)
  {
    RunKeepsNoAdminWithoutUser(Initial, es);
  }
}

=== FILE: callable_properties.dfy ===
/** Properties that relate several calls of the privileged callables. */
module CallableProperties {
  import opened Wrappers
  import opened Js
  import opened Principals
  import opened Callables

  /** A caller without `admin === true` is turned away before anything else:
      the answer is `permission-denied`, the store is untouched, and neither
      the request data, the store nor the provider can change the answer. */
  lemma PermissionCheckedFirst(st1: Store, st2: Store, ctx: CallContext, name: string,
                               d1: Object, d2: Object, l1: ListUsers, l2: ListUsers)
    requires IsCallable(name) && !CallerIsAdmin(ctx)
    ensures Dispatch(st1, ctx, name, d1, l1).store == st1
    ensures Dispatch(st1, ctx, name, d1, l1).result.Err?
    ensures Dispatch(st1, ctx, name, d1, l1).result.error.code == PermissionDenied
    ensures Dispatch(st1, ctx, name, d1, l1).result == Dispatch(st2, ctx, name, d2, l2).result
  {
  }

  /** Listing and looking up never write. */
  lemma ReadOnlyCalls(st: Store, ctx: CallContext, name: string, data: Object, l: ListUsers)
    requires name == "listAllUsers" || name == "getUserByEmail"
    ensures Dispatch(st, ctx, name, data, l).store == st
  {
  }

  /** No call breaks the uniqueness of uids and emails. */
  lemma DispatchKeepsValid(st: Store, ctx: CallContext, name: string, data: Object, l: ListUsers)
    requires IsCallable(name) && Valid(st)
    ensures Valid(Dispatch(st, ctx, name, data, l).store)
  {
  }

  /** Granting (or revoking) twice is granting (or revoking) once: same
      store, same answer. */
  lemma ChangeAdminRoleIdempotent(st: Store, ctx: CallContext, data: Object, grant: bool)
    ensures var once := ChangeAdminRole(st, ctx, data, grant);
      ChangeAdminRole(once.store, ctx, data, grant) == once
  {
    var once := ChangeAdminRole(st, ctx, data, grant);
    if CallerIsAdmin(ctx) && RequiredString(data, "email").Some? {
      var email := RequiredString(data, "email").value;
      var st' := once.store;
      if FindByEmail(st, email).Some? {
        var i := FindByEmail(st, email).value;
        assert st' == Update(st, i, WithClaims(AdminClaims(grant))(st[i]));
        FindByEmailStable(st, st', email);
        assert st'[i] == WithClaims(AdminClaims(grant))(st'[i]);
        assert Update(st', i, WithClaims(AdminClaims(grant))(st'[i])) == st';
      }
    }
  }

  /** The last of a grant and a revoke decides: revoking after granting
      leaves the store as revoking alone would. */
  lemma RevokeAfterGrant(st: Store, ctx: CallContext, data: Object)
    ensures RemoveAdminRole(AddAdminRole(st, ctx, data).store, ctx, data).store
         == RemoveAdminRole(st, ctx, data).store
  {
    var granted := AddAdminRole(st, ctx, data).store;
    if CallerIsAdmin(ctx) && RequiredString(data, "email").Some? {
      var email := RequiredString(data, "email").value;
      if FindByEmail(st, email).Some? {
        var i := FindByEmail(st, email).value;
        FindByEmailStable(st, granted, email);
        assert granted[i := WithClaims(AdminClaims(false))(granted[i])]
            == st[i := WithClaims(AdminClaims(false))(st[i])];
      }
    }
  }

  /** After a successful grant, looking the same email up shows claims that
      are exactly `{admin: true}`, on the record whose uid the grant
      returned. */
  lemma GrantThenLookup(st: Store, ctx: CallContext, data: Object)
    requires Valid(st)
    requires AddAdminRole(st, ctx, data).result.Ok?
    ensures var granted := AddAdminRole(st, ctx, data);
      var found := GetUserByEmail(granted.store, ctx, data).result;
      found.Ok? && found.value.UserInfo? &&
      found.value.user.uid == granted.result.value.uid &&
      found.value.user.customClaims == Some(AdminClaims(true))
  {
    var granted := AddAdminRole(st, ctx, data);
    var email := RequiredString(data, "email").value;
    var i := FindByEmail(st, email).value;
    FindByEmailStable(st, granted.store, email);
    assert granted.store[i] == WithClaims(AdminClaims(true))(st[i]);
  }

  /** Setting the disabled flag twice to the same value is setting it once. */
  lemma SetUserDisabledIdempotent(st: Store, ctx: CallContext, data: Object)
    ensures var once := SetUserDisabled(st, ctx, data);
      SetUserDisabled(once.store, ctx, data) == once
  {
    var once := SetUserDisabled(st, ctx, data);
    if once.result.Ok? {
      var uid := RequiredString(data, "uid").value;
      var d := Get(data, "disabled").b;
      var i := FindByUid(st, uid).value;
      FindByUidStable(st, once.store, uid);
      assert once.store[i] == WithDisabled(d)(once.store[i]);
      assert Update(once.store, i, WithDisabled(d)(once.store[i])) == once.store;
    }
  }
}

=== FILE: callables.dfy ===
/** The five privileged callables as transitions over the principal store.
    Each one checks, in this order: that the caller's token carries
    `admin === true`, that its arguments are well formed, and only then
    touches the store. Failures are typed errors and leave the store as it
    was. */
module Callables {
  import opened Wrappers
  import opened Js
  import opened Principals

  /** The error codes the callables throw. */
  datatype Code = PermissionDenied | InvalidArgument | Internal | NotFound {
    function Name(): string {
      match this
      case PermissionDenied => "permission-denied"
      case InvalidArgument => "invalid-argument"
      case Internal => "internal"
      case NotFound => "not-found"
    }
  }

  datatype HttpsError = HttpsError(code: Code, message: string)

  /** The claims of the caller's identity token, or `None` when the call is
      unauthenticated. */
  datatype CallContext = CallContext(token: Option<Object>)

  /** `context.auth?.token?.admin === true`: only the boolean `true` passes. */
  predicate CallerIsAdmin(ctx: CallContext) {
    ctx.token.Some? && Get(ctx.token.value, "admin") == Bool(true)
  }

  /** What a successful call returns: `{message, uid}` for the role and
      disabled-flag operations, a page of users, or one user's details. */
  datatype Reply =
    | Ack(message: string, uid: string)
    | UserList(users: seq<UserDetails>, pageToken: Option<string>)
    | UserInfo(user: UserDetails)

  /** The store after the call and the call's result. */
  datatype Outcome = Outcome(store: Store, result: Result<Reply, HttpsError>)

  /** The text of the provider's error when no record matches a lookup or an
      update. */
  const NoRecordDetail := "There is no user record corresponding to the provided identifier."

  const EmailRequired := "Email is required and must be a string."
  const UidRequired := "UID is required and must be a string."
  const DisabledRequired := "Disabled status must be a boolean."

  /** `!data[key] || typeof data[key] !== 'string'` rejects; what passes is a
      non-empty string. */
  function RequiredString(data: Object, key: string): (r: Option<string>)
    ensures r.Some? <==> Get(data, key).Str? && Get(data, key).s != ""
    ensures r.Some? ==> Get(data, key) == Str(r.value)
  {
    var v := Get(data, key);
    if !Truthy(v) || !v.Str? then None else Some(v.s)
  }

  /** The claims object grant and revoke write: `{admin: b}` and nothing else. */
  function AdminClaims(admin: bool): Object {
    map["admin" := Bool(admin)]
  }

  /** The record change grant and revoke make: the custom claims become
      exactly `claims`. */
  function WithClaims(claims: Object): Principal -> Principal {
    (p: Principal) => p.(customClaims := Some(claims))
  }

  /** The record change `setUserDisabled` makes. */
  function WithDisabled(disabled: bool): Principal -> Principal {
    (p: Principal) => p.(disabled := disabled)
  }

  /** Some record in `st` has this uid and this email. */
  predicate Owns(st: Store, uid: string, email: string) {
    exists i :: 0 <= i < |st| && st[i].uid == uid && st[i].email == Some(email)
  }

  function DeniedMessage(grant: bool): string {
    if grant then "Only admins can add other admins." else "Only admins can remove admin roles."
  }

  function RoleMessage(grant: bool, email: string): string {
    if grant then "Success! " + email + " has been made an admin."
    else "Success! Admin role removed from " + email + "."
  }

  function RoleErrorPrefix(grant: bool): string {
    if grant then "Error adding admin role: " else "Error removing admin role: "
  }

  /** Grant (`grant`) or revoke the admin role of the principal with the
      requested email. */
  function ChangeAdminRole(store: Store, ctx: CallContext, data: Object, grant: bool): (r: Outcome)
    ensures r.result.Err? ==> r.store == store
    ensures !CallerIsAdmin(ctx) ==>
      r.result == Err(HttpsError(PermissionDenied, DeniedMessage(grant)))
    ensures CallerIsAdmin(ctx) && RequiredString(data, "email").None? ==>
      r.result == Err(HttpsError(InvalidArgument, EmailRequired))
    ensures CallerIsAdmin(ctx) && RequiredString(data, "email").Some? ==>
      var email := RequiredString(data, "email").value;
      (r.result.Err? <==> forall i :: 0 <= i < |store| ==> store[i].email != Some(email)) &&
      (r.result.Err? ==>
        r.result.error == HttpsError(Internal, RoleErrorPrefix(grant) + NoRecordDetail)) &&
      (r.result.Ok? ==>
        r.result.value.Ack? && r.result.value.message == RoleMessage(grant, email) &&
        Owns(store, r.result.value.uid, email))
    ensures r.result.Ok? && Valid(store) ==>
      Valid(r.store) &&
      ChangedOnly(store, r.store, r.result.value.uid, WithClaims(AdminClaims(grant)))
  {
    if !CallerIsAdmin(ctx) then
      Outcome(store, Err(HttpsError(PermissionDenied, DeniedMessage(grant))))
    else match RequiredString(data, "email")
      case None => Outcome(store, Err(HttpsError(InvalidArgument, EmailRequired)))
      case Some(email) =>
        match FindByEmail(store, email)
        case None => Outcome(store, Err(HttpsError(Internal, RoleErrorPrefix(grant) + NoRecordDetail)))
        case Some(i) =>
          var change := WithClaims(AdminClaims(grant));
          var store' := Update(store, i, change(store[i]));
          assert Valid(store) ==> ChangedOnly(store, store', store[i].uid, change) by {
            if Valid(store) {
              UpdateChangesOnly(store, i, change);
            }
          }
          Outcome(store', Ok(Ack(RoleMessage(grant, email), store[i].uid)))
  }

  /** `addAdminRole`. */
  function AddAdminRole(store: Store, ctx: CallContext, data: Object): (r: Outcome)
    ensures r == ChangeAdminRole(store, ctx, data, true)
    ensures r.result.Ok? ==>
      r.result.value.Ack? &&
      r.result.value.message == "Success! " + RequiredString(data, "email").value + " has been made an admin."
  {
    ChangeAdminRole(store, ctx, data, true)
  }

  /** `removeAdminRole`. */
  function RemoveAdminRole(store: Store, ctx: CallContext, data: Object): (r: Outcome)
    ensures r == ChangeAdminRole(store, ctx, data, false)
    ensures r.result.Ok? ==>
      r.result.value.Ack? &&
      r.result.value.message == "Success! Admin role removed from " + RequiredString(data, "email").value + "."
  {
    ChangeAdminRole(store, ctx, data, false)
  }

  /** A page of records from the provider's `listUsers`, with its
      continuation token. */
  datatype ProviderPage = ProviderPage(users: seq<Principal>, pageToken: Option<string>)

  /** The provider's `listUsers(maxResults, pageToken)` over a store: a page
      or the message of the error it threw. */
  type ListUsers = (Store, Value, Value) -> Result<ProviderPage, string>

  /** The result of `listAllUsers` is the projection of the provider's page,
      record by record, or an `internal` error carrying its message. */
  predicate ListedFrom(result: Result<Reply, HttpsError>, page: Result<ProviderPage, string>) {
    match page
    case Err(m) => result == Err(HttpsError(Internal, "Error listing users: " + m))
    case Ok(p) =>
      result.Ok? && result.value.UserList? &&
      |result.value.users| == |p.users| &&
      (forall i :: 0 <= i < |p.users| ==> result.value.users[i] == Details(p.users[i])) &&
      result.value.pageToken == p.pageToken
  }

  /** `listAllUsers`. */
  function ListAllUsers(store: Store, ctx: CallContext, data: Object, listUsers: ListUsers): (r: Outcome)
    ensures r.store == store
    ensures !CallerIsAdmin(ctx) ==>
      r.result == Err(HttpsError(PermissionDenied, "Only admins can list users."))
    ensures CallerIsAdmin(ctx) ==>
      var size := if Truthy(Get(data, "maxResults")) then Get(data, "maxResults") else Num(1000);
      var token := if Truthy(Get(data, "pageToken")) then Get(data, "pageToken") else Undefined;
      ListedFrom(r.result, listUsers(store, size, token))
  {
    if !CallerIsAdmin(ctx) then
      Outcome(store, Err(HttpsError(PermissionDenied, "Only admins can list users.")))
    else
      var maxResults := Or(Get(data, "maxResults"), Num(1000));
      var pageToken := Or(Get(data, "pageToken"), Undefined);
      match listUsers(store, maxResults, pageToken)
      case Err(m) => Outcome(store, Err(HttpsError(Internal, "Error listing users: " + m)))
      case Ok(page) => Outcome(store, Ok(UserList(ProjectAll(page.users), page.pageToken)))
  }

  /** `users.map(...)` keeping only the public fields. */
  function ProjectAll(ps: seq<Principal>): (r: seq<UserDetails>)
    ensures |r| == |ps|
    ensures forall i :: 0 <= i < |ps| ==> r[i] == Details(ps[i])
  {
    seq(|ps|, i requires 0 <= i < |ps| => Details(ps[i]))
  }

  /** `getUserByEmail`. Every failure of the lookup becomes `not-found`. */
  function GetUserByEmail(store: Store, ctx: CallContext, data: Object): (r: Outcome)
    ensures r.store == store
    ensures !CallerIsAdmin(ctx) ==>
      r.result == Err(HttpsError(PermissionDenied, "Only admins can get user details."))
    ensures CallerIsAdmin(ctx) && RequiredString(data, "email").None? ==>
      r.result == Err(HttpsError(InvalidArgument, EmailRequired))
    ensures CallerIsAdmin(ctx) && RequiredString(data, "email").Some? ==>
      var email := RequiredString(data, "email").value;
      (r.result.Err? <==> forall i :: 0 <= i < |store| ==> store[i].email != Some(email)) &&
      (r.result.Err? ==> r.result.error == HttpsError(NotFound, "User not found: " + NoRecordDetail)) &&
      (r.result.Ok? ==>
        r.result.value.UserInfo? &&
        exists i :: 0 <= i < |store| && store[i].email == Some(email) &&
          r.result.value.user == Details(store[i]))
  {
    if !CallerIsAdmin(ctx) then
      Outcome(store, Err(HttpsError(PermissionDenied, "Only admins can get user details.")))
    else match RequiredString(data, "email")
      case None => Outcome(store, Err(HttpsError(InvalidArgument, EmailRequired)))
      case Some(email) =>
        match FindByEmail(store, email)
        case None => Outcome(store, Err(HttpsError(NotFound, "User not found: " + NoRecordDetail)))
        case Some(i) => Outcome(store, Ok(UserInfo(Details(store[i]))))
  }

  function DisabledMessage(disabled: bool): string {
    "User " + (if disabled then "disabled" else "enabled") + " successfully."
  }

  /** `setUserDisabled`: `uid` is checked before `disabled`. */
  function SetUserDisabled(store: Store, ctx: CallContext, data: Object): (r: Outcome)
    ensures r.result.Err? ==> r.store == store
    ensures !CallerIsAdmin(ctx) ==>
      r.result == Err(HttpsError(PermissionDenied, "Only admins can disable/enable users."))
    ensures CallerIsAdmin(ctx) && RequiredString(data, "uid").None? ==>
      r.result == Err(HttpsError(InvalidArgument, UidRequired))
    ensures CallerIsAdmin(ctx) && RequiredString(data, "uid").Some? && !Get(data, "disabled").Bool? ==>
      r.result == Err(HttpsError(InvalidArgument, DisabledRequired))
    ensures CallerIsAdmin(ctx) && RequiredString(data, "uid").Some? && Get(data, "disabled").Bool? ==>
      var uid := RequiredString(data, "uid").value;
      var disabled := Get(data, "disabled").b;
      (r.result.Err? <==> forall i :: 0 <= i < |store| ==> store[i].uid != uid) &&
      (r.result.Err? ==> r.result.error == HttpsError(Internal, "Error updating user: " + NoRecordDetail)) &&
      (r.result.Ok? ==>
        r.result.value == Ack(DisabledMessage(disabled), uid) &&
        (Valid(store) ==> Valid(r.store) && ChangedOnly(store, r.store, uid, WithDisabled(disabled))))
  {
    if !CallerIsAdmin(ctx) then
      Outcome(store, Err(HttpsError(PermissionDenied, "Only admins can disable/enable users.")))
    else match RequiredString(data, "uid")
      case None => Outcome(store, Err(HttpsError(InvalidArgument, UidRequired)))
      case Some(uid) =>
        var flag := Get(data, "disabled");
        if !flag.Bool? then Outcome(store, Err(HttpsError(InvalidArgument, DisabledRequired)))
        else match FindByUid(store, uid)
          case None => Outcome(store, Err(HttpsError(Internal, "Error updating user: " + NoRecordDetail)))
          case Some(i) =>
            var change := WithDisabled(flag.b);
            var store' := Update(store, i, change(store[i]));
            assert Valid(store) ==> ChangedOnly(store, store', uid, change) by {
              if Valid(store) {
                UpdateChangesOnly(store, i, change);
              }
            }
            Outcome(store', Ok(Ack(DisabledMessage(flag.b), uid)))
  }

  /** The deployed callables, by the names clients invoke them with. */
  predicate IsCallable(name: string) {
    name in {"addAdminRole", "removeAdminRole", "listAllUsers", "getUserByEmail", "setUserDisabled"}
  }

  /** Route a call to the callable it names. Only `listAllUsers` answers
      with a page and only `getUserByEmail` with one user's details, and a
      call that fails never writes. */
  function Dispatch(store: Store, ctx: CallContext, name: string, data: Object, listUsers: ListUsers): (r: Outcome)
    requires IsCallable(name)
    ensures r.result.Err? ==> r.store == store
    ensures r.result.Ok? ==>
      (r.result.value.UserList? <==> name == "listAllUsers") &&
      (r.result.value.UserInfo? <==> name == "getUserByEmail") &&
      (r.result.value.Ack? <==> name in {"addAdminRole", "removeAdminRole", "setUserDisabled"})
  {
    match name
    case "addAdminRole" => AddAdminRole(store, ctx, data)
    case "removeAdminRole" => RemoveAdminRole(store, ctx, data)
    case "listAllUsers" => ListAllUsers(store, ctx, data, listUsers)
    case "getUserByEmail" => GetUserByEmail(store, ctx, data)
    case _ => SetUserDisabled(store, ctx, data)
  }

  /** The request body a callable receives: an object, or `null` when the
      client sends no data. */
  datatype Body = Fields(data: Object) | NullBody

  /** The JavaScript runtime's TypeError message for reading a property of
      `null`. */
  function NullReadMessage(key: string): string {
    "Cannot read properties of null (reading '" + key + "')"
  }

  /** The message the callable runtime sends for a thrown value that is not
      an `HttpsError`. */
  const UncaughtMessage := "INTERNAL"

  /** A call as it arrives. An object body goes to the callable. A `null`
      body passes the permission check, which reads only the token; the
      first read of `data.<field>` then throws a TypeError. In
      `listAllUsers` that read is inside the `try`, so the answer is "Error
      listing users: ..."; in the other four it escapes the handler and the
      runtime answers `internal`. Nothing is written either way. */
  function Receive(store: Store, ctx: CallContext, name: string, body: Body, listUsers: ListUsers): (r: Outcome)
    requires IsCallable(name)
    ensures body.Fields? ==> r == Dispatch(store, ctx, name, body.data, listUsers)
    ensures body.NullBody? ==> r.store == store && r.result.Err?
    ensures body.NullBody? && !CallerIsAdmin(ctx) ==>
      r.result == Dispatch(store, ctx, name, map[], listUsers).result
    ensures body.NullBody? && CallerIsAdmin(ctx) ==>
      r.result.error.code == Internal &&
      (name == "listAllUsers" ==> r.result.error.message == "Error listing users: " + NullReadMessage("maxResults")) &&
      (name != "listAllUsers" ==> r.result.error.message == UncaughtMessage)
  {
    match body
    case Fields(data) => Dispatch(store, ctx, name, data, listUsers)
    case NullBody =>
      if !CallerIsAdmin(ctx) then Dispatch(store, ctx, name, map[], listUsers)
      else if name == "listAllUsers" then
        Outcome(store, Err(HttpsError(Internal, "Error listing users: " + NullReadMessage("maxResults"))))
      else Outcome(store, Err(HttpsError(Internal, UncaughtMessage)))
  }

  /** Without data, no callable ever succeeds: an admin gets `internal`
      where an object lacking the field would get `invalid-argument` from
      the four that check their arguments. */
  lemma NullBodyIsNotMissingField(store: Store, ctx: CallContext, name: string, listUsers: ListUsers)
    requires IsCallable(name) && name != "listAllUsers" && CallerIsAdmin(ctx)
    ensures Receive(store, ctx, name, NullBody, listUsers).result.error.code == Internal
    ensures Receive(store, ctx, name, Fields(map[]), listUsers).result.error.code == InvalidArgument
  {
    assert Get(map[], "email") == Undefined;
    assert Get(map[], "uid") == Undefined;
  }
}

=== FILE: firestore.dfy ===
/** The Firestore documents the dashboard reads, and its queries as
    filters over a database snapshot. Any query may fail; the failing ones
    are an input. */
module Firestore {
  import opened Wrappers
  import opened Seqs
  import Organizations

  /** `organizations/{orgId}/projects/{id}`. */
  datatype ProjectDoc = ProjectDoc(orgId: string, id: string, name: string, status: string, description: Option<string>)

  /** `users/{uid}` with its optional `organizationId` field. */
  datatype UserDoc = UserDoc(uid: string, organizationId: Option<string>)

  /** A note's `createdAt` field: absent, stored as null, or a timestamp
      in whole seconds. */
  datatype Stamp = NoField | NullStamp | Seconds(seconds: int)

  /** A `followUpNote` document: its path split at '/', who it is assigned
      to, its status, `createdAt` and `dueDate` as a day number. */
  datatype NoteDoc = NoteDoc(
    path: seq<string>,
    assignedTo: Option<string>,
    status: Option<string>,
    createdAt: Stamp,
    dueDate: Option<int>)

  datatype Db = Db(
    organizations: seq<Organizations.Organization>,
    projects: seq<ProjectDoc>,
    users: seq<UserDoc>,
    notes: seq<NoteDoc>)

  /** A photo's notes collection, keyed by organization, project and photo. */
  datatype PhotoKey = PhotoKey(orgId: string, projectId: string, photoId: string)

  /** The reads the screens issue. */
  datatype Query =
    | AllOrganizations
    | AllProjects
    | ActiveProjects
    | OrgProjects(orgId: string)
    | ActiveOrgProjects(orgId: string)
    | UserDocument(uid: string)
    | AllUsers
    | OrgUsers(orgId: string)
    | AssignedNotes(uid: string)
    | PhotoNotes(key: PhotoKey)

  /** A snapshot and the queries that fail against it. */
  datatype Reads = Reads(db: Db, failing: set<Query>)

  predicate ProjectSelected(q: Query, p: ProjectDoc) {
    match q
    case AllProjects => true
    case ActiveProjects => p.status == "Active"
    case OrgProjects(o) => p.orgId == o
    case ActiveOrgProjects(o) => p.orgId == o && p.status == "Active"
    case _ => false
  }

  predicate UserSelected(q: Query, u: UserDoc) {
    match q
    case AllUsers => true
    case OrgUsers(o) => u.organizationId == Some(o)
    case _ => false
  }

  /** Segment `i` of a split path; past the end it is the text JavaScript
      interpolates for `undefined`. */
  function Segment(path: seq<string>, i: nat): string {
    if i < |path| then path[i] else "undefined"
  }

  /** The photo a note belongs to: path segments 1, 3 and 5. */
  function KeyOf(path: seq<string>): PhotoKey {
    PhotoKey(Segment(path, 1), Segment(path, 3), Segment(path, 5))
  }

  /** The note lives in the collection
      `organizations/{o}/projects/{p}/photos/{ph}/followUpNote`. */
  predicate InPhoto(key: PhotoKey, path: seq<string>) {
    |path| == 8 && path[0] == "organizations" && path[1] == key.orgId && path[2] == "projects" &&
    path[3] == key.projectId && path[4] == "photos" && path[5] == key.photoId && path[6] == "followUpNote"
  }

  /** The photo's notes are read ordered by `createdAt`, and an ordered
      query leaves out every document that lacks the field. */
  predicate NoteSelected(q: Query, n: NoteDoc) {
    match q
    case AssignedNotes(uid) => n.assignedTo == Some(uid)
    case PhotoNotes(key) => InPhoto(key, n.path) && !n.createdAt.NoField?
    case _ => false
  }

  /** Each query's condition as a function value, so that a query names
      one and the same filter wherever it is used. */
  function SelectsProject(q: Query): ProjectDoc -> bool {
    p => ProjectSelected(q, p)
  }

  function SelectsUser(q: Query): UserDoc -> bool {
    u => UserSelected(q, u)
  }

  function SelectsNote(q: Query): NoteDoc -> bool {
    n => NoteSelected(q, n)
  }

  /** A note found by its photo's collection is keyed by that photo. */
  lemma InPhotoKey(key: PhotoKey, path: seq<string>)
    requires InPhoto(key, path)
    ensures KeyOf(path) == key
  {
  }

  /** The size of the organizations collection, or None when it fails. */
  function OrganizationsSize(snap: Reads): (r: Option<nat>)
    ensures r.None? <==> AllOrganizations in snap.failing
    ensures r.Some? ==> r.value == |snap.db.organizations|
  {
    if AllOrganizations in snap.failing then None else Some(|snap.db.organizations|)
  }

  /** A project query's documents in snapshot order, or None when it fails. */
  function Projects(snap: Reads, q: Query): (r: Option<seq<ProjectDoc>>)
    ensures r.None? <==> q in snap.failing
    ensures r.Some? ==> IsSubsequence(r.value, snap.db.projects)
    ensures r.Some? ==> forall i :: 0 <= i < |snap.db.projects| ==>
      (snap.db.projects[i] in r.value <==> ProjectSelected(q, snap.db.projects[i]))
  {
    if q in snap.failing then None else Some(Filter(snap.db.projects, SelectsProject(q)))
  }

  /** A user query's documents, or None when it fails. */
  function Users(snap: Reads, q: Query): (r: Option<seq<UserDoc>>)
    ensures r.None? <==> q in snap.failing
    ensures r.Some? ==> IsSubsequence(r.value, snap.db.users)
    ensures r.Some? ==> forall i :: 0 <= i < |snap.db.users| ==>
      (snap.db.users[i] in r.value <==> UserSelected(q, snap.db.users[i]))
  {
    if q in snap.failing then None else Some(Filter(snap.db.users, SelectsUser(q)))
  }

  /** A note query's documents, or None when it fails. */
  function Notes(snap: Reads, q: Query): (r: Option<seq<NoteDoc>>)
    ensures r.None? <==> q in snap.failing
    ensures r.Some? ==> IsSubsequence(r.value, snap.db.notes)
    ensures r.Some? ==> forall i :: 0 <= i < |snap.db.notes| ==>
      (snap.db.notes[i] in r.value <==> NoteSelected(q, snap.db.notes[i]))
  {
    if q in snap.failing then None else Some(Filter(snap.db.notes, SelectsNote(q)))
  }

  /** A query's `snapshot.size`: the number of documents it selects, or
      None when it fails. */
  function ProjectsSize(snap: Reads, q: Query): (r: Option<nat>)
    ensures r.None? <==> q in snap.failing
    ensures r.Some? ==> r.value == |Projects(snap, q).value|
  {
    if q in snap.failing then None
    else
      CountIsFilterLength(snap.db.projects, SelectsProject(q));
      Some(Count(snap.db.projects, SelectsProject(q)))
  }

  function UsersSize(snap: Reads, q: Query): (r: Option<nat>)
    ensures r.None? <==> q in snap.failing
    ensures r.Some? ==> r.value == |Users(snap, q).value|
  {
    if q in snap.failing then None
    else
      CountIsFilterLength(snap.db.users, SelectsUser(q));
      Some(Count(snap.db.users, SelectsUser(q)))
  }

  function NotesSize(snap: Reads, q: Query): (r: Option<nat>)
    ensures r.None? <==> q in snap.failing
    ensures r.Some? ==> r.value == |Notes(snap, q).value|
  {
    if q in snap.failing then None
    else
      CountIsFilterLength(snap.db.notes, SelectsNote(q));
      Some(Count(snap.db.notes, SelectsNote(q)))
  }

  /** What reading `users/{uid}` tells about the user's organization. */
  datatype Membership = ReadFailed | NoOrganization | Member(orgId: string)

  /** Position `i` holds the first document with this uid. */
  predicate FirstUserDoc(users: seq<UserDoc>, uid: string, i: int) {
    0 <= i < |users| && users[i].uid == uid && forall j :: 0 <= j < i ==> users[j].uid != uid
  }

  /** The first document with this uid, if any. */
  function FindUserDoc(users: seq<UserDoc>, uid: string): (r: Option<nat>)
    ensures r.Some? ==> FirstUserDoc(users, uid, r.value)
    ensures r.None? <==> forall i :: 0 <= i < |users| ==> users[i].uid != uid
  {
    if users == [] then None
    else if users[0].uid == uid then Some(0)
    else match FindUserDoc(users[1..], uid)
      case None => None
      case Some(i) => Some(i + 1)
  }

  /** Whether a user document names an organization: a missing field and
      an empty id both do not. */
  predicate NamesOrganization(doc: UserDoc) {
    doc.organizationId.Some? && doc.organizationId.value != ""
  }

  /** `userDoc.data()?.organizationId`, read as a condition: a missing
      document, a missing field and an empty id all mean no organization;
      when several documents carry the uid, the first decides. */
  function MembershipOf(snap: Reads, uid: string): (r: Membership)
    ensures r == ReadFailed <==> UserDocument(uid) in snap.failing
    ensures UserDocument(uid) !in snap.failing && (forall i :: 0 <= i < |snap.db.users| ==> snap.db.users[i].uid != uid) ==>
      r == NoOrganization
    ensures UserDocument(uid) !in snap.failing ==>
      forall i :: FirstUserDoc(snap.db.users, uid, i) ==>
        (r == NoOrganization <==> !NamesOrganization(snap.db.users[i])) &&
        (r.Member? ==> snap.db.users[i].organizationId == Some(r.orgId))
    ensures r.Member? ==>
      r.orgId != "" && exists i :: 0 <= i < |snap.db.users| && snap.db.users[i] == UserDoc(uid, Some(r.orgId))
  {
    if UserDocument(uid) in snap.failing then ReadFailed
    else match FindUserDoc(snap.db.users, uid)
      case None => NoOrganization
      case Some(i) =>
        var doc := snap.db.users[i];
        if !NamesOrganization(doc) then NoOrganization
        else Member(doc.organizationId.value)
  }

  /** The first document that names an organization makes the user a
      member of exactly that organization, whatever later documents say. */
  lemma {:induction false} DocumentDecidesMembership(snap: Reads, uid: string, i: nat)
    requires UserDocument(uid) !in snap.failing
    requires FirstUserDoc(snap.db.users, uid, i) && NamesOrganization(snap.db.users[i])
    ensures MembershipOf(snap, uid) == Member(snap.db.users[i].organizationId.value)
  {
    var k := FindUserDoc(snap.db.users, uid);
    assert k.Some?;
    assert k.value == i;
  }
}

=== FILE: js.dfy ===
/** JavaScript values as they cross the callable and token boundaries, with
    the truthiness rule that `!x`, `x || y` and `!!x` apply. Numbers are
    integers here: NaN and fractions never reach the decisions modelled. */
module Js {

  /** `Other` stands for any object or array: always truthy, `typeof` is
      "object". */
  datatype Value = Undefined | Null | Bool(b: bool) | Num(n: int) | Str(s: string) | Other

  /** ECMAScript ToBoolean. */
  predicate Truthy(v: Value) {
    match v
    case Undefined => false
    case Null => false
    case Bool(b) => b
    case Num(n) => n != 0
    case Str(s) => s != ""
    case Other => true
  }

  /** `a || b`. */
  function Or(a: Value, b: Value): Value {
    if Truthy(a) then a else b
  }

  /** A JSON object: callable request data, custom claims, token claims. */
  type Object = map<string, Value>

  /** `o.key`, which is `undefined` for a missing key. */
  function Get(o: Object, key: string): Value {
    if key in o then o[key] else Undefined
  }

  /** What a `catch` clause receives: an `Error` (with its `message`) or some
      other thrown value that has no message. */
  datatype Thrown = Error(message: string) | NonError

  /** `err instanceof Error ? err.message : fallback`. */
  function ErrorMessageOr(t: Thrown, fallback: string): string {
    match t
    case Error(m) => m
    case NonError => fallback
  }

  /** `err?.message || fallback`: an empty message also falls back. */
  function MessageOrDefault(t: Thrown, fallback: string): (r: string)
    ensures fallback != "" ==> r != ""
    ensures t.Error? && t.message != "" ==> r == t.message
    ensures !(t.Error? && t.message != "") ==> r == fallback
  {
    match t
    case Error(m) => if m != "" then m else fallback
    case NonError => fallback
  }
}

=== FILE: layout.dfy ===
/** The protected area's layout: which navigation entry is highlighted, the
    sidebar counters scoped by role, the overdue follow-up counter and its
    badge, and the project selector's label. */
module Layout {
  import opened Wrappers
  import opened Js
  import opened Strings
  import opened Seqs
  import opened Firestore
  import opened AdminAuth

  /** `isActive(path)`: the dashboard entry only on the dashboard itself,
      every other entry on any path it prefixes. */
  predicate IsActive(pathname: string, path: string)
    ensures IsActive(pathname, path) ==> StartsWith(pathname, path)
    ensures pathname == path ==> IsActive(pathname, path)
  {
    if path == "/protected" then pathname == "/protected" else StartsWith(pathname, path)
  }

  /** On a sub-page the dashboard entry is not highlighted, while the
      sub-page's own entry stays highlighted on every deeper path. */
  lemma ActiveEntries(path: string, rest: string)
    requires path != "/protected"
    ensures IsActive(path + rest, path)
    ensures path + rest != "/protected" ==> !IsActive(path + rest, "/protected")
  {
    assert (path + rest)[..|path|] == path;
  }

  // ---- Role-scoped counters ----

  /** The role a counter resolves: the client resolver's answer for the
      signed-in user. */
  function IsAdminUser(user: User, refreshed: Result<Object, Thrown>): (r: bool)
    ensures r <==> refreshed.Ok? && Truthy(Get(refreshed.value, "admin"))
  {
    CheckIsAdmin(Some(user), refreshed).isAdmin
  }

  /** `fetchActiveProjectsCount`: admins count Active projects everywhere,
      members only in their organization; no organization or a failed read
      gives null. Without a database the previous value stays. */
  function ActiveProjectsCount(prev: Option<nat>, ready: bool, user: User, refreshed: Result<Object, Thrown>, snap: Reads): (r: Option<nat>)
    ensures !ready ==> r == prev
    ensures ready && IsAdminUser(user, refreshed) ==> r == ProjectsSize(snap, ActiveProjects)
    ensures ready && !IsAdminUser(user, refreshed) ==>
      match MembershipOf(snap, user.uid)
      case Member(o) => r == ProjectsSize(snap, ActiveOrgProjects(o))
      case _ => r.None?
  {
    if !ready then prev
    else if IsAdminUser(user, refreshed) then ProjectsSize(snap, ActiveProjects)
    else match MembershipOf(snap, user.uid)
      case Member(o) => ProjectsSize(snap, ActiveOrgProjects(o))
      case _ => None
  }

  /** `fetchTeamMembersCount`: admins count every user document, members the
      documents of their organization. */
  function TeamMembersCount(prev: Option<nat>, ready: bool, user: User, refreshed: Result<Object, Thrown>, snap: Reads): (r: Option<nat>)
    ensures !ready ==> r == prev
    ensures ready && IsAdminUser(user, refreshed) ==> r == UsersSize(snap, AllUsers)
    ensures ready && !IsAdminUser(user, refreshed) ==>
      match MembershipOf(snap, user.uid)
      case Member(o) => r == UsersSize(snap, OrgUsers(o))
      case _ => r.None?
  {
    if !ready then prev
    else if IsAdminUser(user, refreshed) then UsersSize(snap, AllUsers)
    else match MembershipOf(snap, user.uid)
      case Member(o) => UsersSize(snap, OrgUsers(o))
      case _ => None
  }

  /** `fetchFollowUpNotesCount`: the notes assigned to the user, for every
      role. */
  function FollowUpNotesCount(prev: Option<nat>, ready: bool, user: User, snap: Reads): (r: Option<nat>)
    ensures !ready ==> r == prev
    ensures ready ==> r == NotesSize(snap, AssignedNotes(user.uid))
  {
    if !ready then prev else NotesSize(snap, AssignedNotes(user.uid))
  }

  /** A member's counters never exceed what an admin would see in the same
      snapshot. */
  lemma MemberCountsBounded(snap: Reads, orgId: string)
    requires ActiveProjects !in snap.failing && ActiveOrgProjects(orgId) !in snap.failing
    requires AllUsers !in snap.failing && OrgUsers(orgId) !in snap.failing
    ensures ProjectsSize(snap, ActiveOrgProjects(orgId)).value <= ProjectsSize(snap, ActiveProjects).value
    ensures UsersSize(snap, OrgUsers(orgId)).value <= UsersSize(snap, AllUsers).value
  {
    CountMonotone(snap.db.projects, SelectsProject(ActiveOrgProjects(orgId)), SelectsProject(ActiveProjects));
    CountMonotone(snap.db.users, SelectsUser(OrgUsers(orgId)), SelectsUser(AllUsers));
  }

  /** A member always counts themselves: their own user document names
      their organization, so the team counter is at least 1. */
  lemma MemberCountsThemselves(ready: bool, user: User, refreshed: Result<Object, Thrown>, snap: Reads, o: string)
    requires ready && !IsAdminUser(user, refreshed)
    requires MembershipOf(snap, user.uid) == Member(o) && OrgUsers(o) !in snap.failing
    ensures TeamMembersCount(None, ready, user, refreshed, snap).value >= 1
  {
    var i :| 0 <= i < |snap.db.users| && snap.db.users[i] == UserDoc(user.uid, Some(o));
    assert SelectsUser(OrgUsers(o))(snap.db.users[i]);
  }

  // ---- Overdue follow-up notes ----

  /** `createdAt?.seconds || 0`. */
  function CreatedKey(n: NoteDoc): int {
    if n.createdAt.Seconds? then n.createdAt.seconds else 0
  }

  /** Position `i` holds what a stable newest-first sort of the notes with a
      due date puts first: it has a due date, no such note is newer, and
      every such note before it is strictly older. */
  predicate IsLatest(notes: seq<NoteDoc>, i: nat) {
    i < |notes| && notes[i].dueDate.Some? &&
    (forall j :: 0 <= j < |notes| && notes[j].dueDate.Some? ==> CreatedKey(notes[j]) <= CreatedKey(notes[i])) &&
    (forall j :: 0 <= j < i && notes[j].dueDate.Some? ==> CreatedKey(notes[j]) < CreatedKey(notes[i]))
  }

  /** The head of `notes.filter(n => n.dueDate).sort(newest first)`. */
  function LatestIndex(notes: seq<NoteDoc>): (r: Option<nat>)
    ensures r.None? <==> forall j :: 0 <= j < |notes| ==> notes[j].dueDate.None?
    ensures r.Some? ==> IsLatest(notes, r.value)
  {
    if notes == [] then None
    else match LatestIndex(notes[1..])
      case None => if notes[0].dueDate.Some? then Some(0) else None
      case Some(i) =>
        if notes[0].dueDate.Some? && CreatedKey(notes[i + 1]) <= CreatedKey(notes[0]) then Some(0)
        else Some(i + 1)
  }

  /** Only one position fits that description. */
  lemma LatestUnique(notes: seq<NoteDoc>, i: nat, k: nat)
    requires IsLatest(notes, i) && IsLatest(notes, k)
    ensures i == k
  {
  }

  /** `getMostRecentDueDate`: the due date of the newest note that has one. */
  function MostRecentDueDate(notes: seq<NoteDoc>): (r: Option<int>)
    ensures r.None? <==> forall j :: 0 <= j < |notes| ==> notes[j].dueDate.None?
    ensures r.Some? ==> exists i: nat :: IsLatest(notes, i) && notes[i].dueDate == r
  {
    match LatestIndex(notes)
    case None => None
    case Some(i) => notes[i].dueDate
  }

  /** `isOverdueOrDueToday`: due on or before today, by day. */
  predicate IsOverdueOrDueToday(due: Option<int>, today: int)
    ensures due.None? ==> !IsOverdueOrDueToday(due, today)
    ensures due == Some(today) ==> IsOverdueOrDueToday(due, today)
  {
    due.Some? && due.value <= today
  }

  /** The photo's notes; a failed read counts as none. */
  function PhotoNotesOf(snap: Reads, key: PhotoKey): seq<NoteDoc> {
    Notes(snap, PhotoNotes(key)).GetOr([])
  }

  /** An assigned note counts when it is Open and its photo's newest due
      date has arrived. */
  predicate CountsAsOverdue(snap: Reads, today: int, n: NoteDoc) {
    n.status == Some("Open") && IsOverdueOrDueToday(MostRecentDueDate(PhotoNotesOf(snap, KeyOf(n.path))), today)
  }

  function OverdueTest(snap: Reads, today: int): NoteDoc -> bool {
    n => CountsAsOverdue(snap, today, n)
  }

  function IsOpen(): NoteDoc -> bool {
    (n: NoteDoc) => n.status == Some("Open")
  }

  /** `fetchOverdueNotesCount`: 0 for a member without an organization and
      on any failure, otherwise the assigned notes that count as overdue. */
  function OverdueNotesCount(prev: nat, ready: bool, user: User, refreshed: Result<Object, Thrown>, snap: Reads, today: int): (r: nat)
    ensures !ready ==> r == prev
    ensures ready && !IsAdminUser(user, refreshed) && !MembershipOf(snap, user.uid).Member? ==> r == 0
    ensures ready && AssignedNotes(user.uid) in snap.failing ==> r == 0
    ensures ready ==> r <= NotesSize(snap, AssignedNotes(user.uid)).GetOr(0)
    ensures
      (ready && (IsAdminUser(user, refreshed) || MembershipOf(snap, user.uid).Member?) &&
       AssignedNotes(user.uid) !in snap.failing) ==>
      r == Count(Notes(snap, AssignedNotes(user.uid)).value, OverdueTest(snap, today))
  {
    if !ready then prev
    else if !IsAdminUser(user, refreshed) && !MembershipOf(snap, user.uid).Member? then 0
    else match Notes(snap, AssignedNotes(user.uid))
      case None => 0
      case Some(mine) => Count(mine, OverdueTest(snap, today))
  }

  /** Notes stored without `createdAt` never reach the photo's ordered
      read, so a photo whose notes all lack it has no newest due date and
      none of its notes counts, whatever their due dates. */
  lemma UnstampedNotesIgnored(snap: Reads, today: int, n: NoteDoc)
    requires forall j :: 0 <= j < |snap.db.notes| && InPhoto(KeyOf(n.path), snap.db.notes[j].path) ==>
      snap.db.notes[j].createdAt.NoField?
    ensures MostRecentDueDate(PhotoNotesOf(snap, KeyOf(n.path))).None?
    ensures !CountsAsOverdue(snap, today, n)
  {
    var key := KeyOf(n.path);
    if PhotoNotes(key) !in snap.failing {
      var got := Notes(snap, PhotoNotes(key)).value;
      if got != [] {
        assert false;
      }
    }
  }

  /** Only Open notes are ever counted. */
  lemma OverdueOnlyOpen(snap: Reads, today: int, notes: seq<NoteDoc>)
    ensures Count(notes, OverdueTest(snap, today)) <= Count(notes, IsOpen())
  {
    CountMonotone(notes, OverdueTest(snap, today), IsOpen());
  }

  /** A later day never shows fewer overdue notes. */
  lemma OverdueGrowsWithTime(snap: Reads, today: int, later: int, notes: seq<NoteDoc>)
    requires today <= later
    ensures Count(notes, OverdueTest(snap, today)) <= Count(notes, OverdueTest(snap, later))
  {
    CountMonotone(notes, OverdueTest(snap, today), OverdueTest(snap, later));
  }

  /** Whether an Open note counts depends on its photo only: every Open
      note of a photo gets the same verdict. */
  lemma SamePhotoSameVerdict(snap: Reads, today: int, a: NoteDoc, b: NoteDoc)
    requires KeyOf(a.path) == KeyOf(b.path)
    requires a.status == Some("Open") && b.status == Some("Open")
    ensures CountsAsOverdue(snap, today, a) == CountsAsOverdue(snap, today, b)
  {
  }

  /** The newest note's due date decides, not an older note's own: of a
      photo's two notes, the older is due on day 100 and the newer on day 5,
      so on day 10 the photo is overdue. */
  lemma NewestDueDateDecides()
    ensures var older := NoteDoc([], None, Some("Open"), Seconds(1), Some(100));
      var newer := NoteDoc([], None, Some("Open"), Seconds(2), Some(5));
      !IsOverdueOrDueToday(older.dueDate, 10) && IsOverdueOrDueToday(MostRecentDueDate([older, newer]), 10)
  {
    var older := NoteDoc([], None, Some("Open"), Seconds(1), Some(100));
    var newer := NoteDoc([], None, Some("Open"), Seconds(2), Some(5));
    assert [older, newer][1..] == [newer];
    assert [newer][1..] == [];
    assert LatestIndex([newer]) == Some(0);
    assert LatestIndex([older, newer]) == Some(1);
  }

  // ---- Labels ----

  /** The overdue badge: hidden at 0, the number up to 99, then "99+". */
  function BadgeLabel(count: nat): (r: Option<string>)
    ensures r.None? <==> count == 0
    ensures 0 < count <= 99 ==>
      r.Some? && (forall i :: 0 <= i < |r.value| ==> '0' <= r.value[i] <= '9') && ParseNat(r.value) == count
    ensures count > 99 ==> r == Some("99+")
  {
    if count == 0 then None
    else if count > 99 then Some("99+")
    else
      NatToStringRoundTrip(count);
      Some(NatToString(count))
  }

  /** A project as the selector lists it. */
  datatype ProjectOption = ProjectOption(id: string, name: string, status: string)

  /** The first project with this id. */
  function FindProject(projects: seq<ProjectOption>, id: string): (r: Option<nat>)
    ensures r.Some? ==>
      r.value < |projects| && projects[r.value].id == id &&
      forall j :: 0 <= j < r.value ==> projects[j].id != id
    ensures r.None? <==> forall j :: 0 <= j < |projects| ==> projects[j].id != id
  {
    if projects == [] then None
    else if projects[0].id == id then Some(0)
    else match FindProject(projects[1..], id)
      case None => None
      case Some(i) => Some(i + 1)
  }

  /** Position `j` holds the first project with this id. */
  predicate FirstWithId(projects: seq<ProjectOption>, id: string, j: int) {
    0 <= j < |projects| && projects[j].id == id && forall k :: 0 <= k < j ==> projects[k].id != id
  }

  const AllProjectsLabel := "All Projects"

  /** The selector's label: "All Projects" for `'all'`, for an id no project
      has, and for a project with an empty name; otherwise the first
      matching project's name. */
  function ProjectLabel(selected: string, projects: seq<ProjectOption>): (r: string)
    ensures selected == "all" ==> r == AllProjectsLabel
    ensures (forall j :: 0 <= j < |projects| ==> projects[j].id != selected) ==> r == AllProjectsLabel
    ensures selected != "all" ==>
      forall j :: FirstWithId(projects, selected, j) ==>
        r == if projects[j].name == "" then AllProjectsLabel else projects[j].name
  {
    if selected == "all" then AllProjectsLabel
    else match FindProject(projects, selected)
      case None => AllProjectsLabel
      case Some(i) => if projects[i].name == "" then AllProjectsLabel else projects[i].name
  }
}

=== FILE: login.dfy ===
/** The sign-in page: the classification of provider error text into a
    readable message, and the state the submit handler leaves. */
module Login {
  import opened Wrappers
  import opened Js
  import opened Strings

  /** The error codes looked for, in priority order, and the message shown
      for each. */
  const Codes: seq<string> := ["user-not-found", "wrong-password", "too-many-requests", "invalid-email", "user-disabled"]
  const Readable: seq<string> := [
    "No account found with this email address",
    "Incorrect password. Please try again",
    "Too many failed attempts. Please wait a moment",
    "Please enter a valid email address",
    "This account has been disabled. Contact your administrator"]
  const Fallback := "Unable to sign in. Please check your credentials and try again"

  /** Code `k` is the first code the error text contains. */
  predicate FirstMatch(error: string, k: int) {
    0 <= k < |Codes| && Contains(error, Codes[k]) && forall j :: 0 <= j < k ==> !Contains(error, Codes[j])
  }

  /** `getReadableErrorMessage`. */
  function ReadableErrorMessage(error: string): (r: string)
    ensures r in Readable || r == Fallback
    ensures forall k :: FirstMatch(error, k) ==> r == Readable[k]
    ensures (forall k :: 0 <= k < |Codes| ==> !Contains(error, Codes[k])) <==> r == Fallback
  {
    if Contains(error, Codes[0]) then Readable[0]
    else if Contains(error, Codes[1]) then Readable[1]
    else if Contains(error, Codes[2]) then Readable[2]
    else if Contains(error, Codes[3]) then Readable[3]
    else if Contains(error, Codes[4]) then Readable[4]
    else Fallback
  }

  /** The provider's "no such user" text reads as the first message. */
  lemma ProviderNotFoundIsReadable()
    ensures ReadableErrorMessage("Firebase: Error (auth/user-not-found).") == Readable[0]
  {
    var s := "Firebase: Error (auth/user-not-found).";
    assert OccursAt(s, "user-not-found", 22);
    ContainsIffOccurs(s, "user-not-found");
  }

  datatype State = State(email: string, password: string, error: string, loading: bool)

  /** A sign-in attempt with the form's credentials. */
  datatype SignIn = SignIn(email: string, password: string)

  /** The handler's resulting state, its sign-in attempt and where it
      navigates. */
  datatype Submitted = Submitted(state: State, attempt: SignIn, redirect: Option<string>)

  /** What the handler sets before the attempt: loading, and no error. */
  function Begin(s: State): (r: State)
    ensures r.loading && r.error == ""
    ensures r.email == s.email && r.password == s.password
  {
    s.(loading := true, error := "")
  }

  /** `handleSubmit`, given the sign-in outcome: on success go to the
      protected area; on failure store the error's message, or
      "Login failed" for a thrown non-Error. Loading ends either way. */
  function HandleSubmit(s: State, outcome: Result<(), Thrown>): (r: Submitted)
    ensures r.attempt == SignIn(s.email, s.password)
    ensures !r.state.loading
    ensures outcome.Ok? <==> r.redirect == Some("/protected")
    ensures outcome.Ok? ==> r.state.error == ""
    ensures outcome.Err? ==> r.redirect.None? && r.state.error == ErrorMessageOr(outcome.error, "Login failed")
    ensures r.state.email == s.email && r.state.password == s.password
  {
    var started := Begin(s);
    match outcome
    case Ok(_) => Submitted(started.(loading := false), SignIn(s.email, s.password), Some("/protected"))
    case Err(t) =>
      Submitted(started.(loading := false, error := ErrorMessageOr(t, "Login failed")), SignIn(s.email, s.password), None)
  }

  /** The error banner: shown only for a non-empty error, with its readable
      form. */
  function ShownError(s: State): (r: Option<string>)
    ensures r.None? <==> s.error == ""
    ensures r.Some? ==> r.value == ReadableErrorMessage(s.error)
  {
    if s.error == "" then None else Some(ReadableErrorMessage(s.error))
  }

  /** A thrown non-Error shows the fallback message, since "Login failed"
      contains none of the codes. */
  lemma NonErrorShowsFallback(s: State)
    ensures ShownError(HandleSubmit(s, Err(NonError)).state) == Some(Fallback)
  {
    ShortTextFallback(HandleSubmit(s, Err(NonError)).state.error);
  }

  /** Text shorter than every code reads as the fallback. */
  lemma ShortTextFallback(error: string)
    requires |error| < 13
    ensures ReadableErrorMessage(error) == Fallback
  {
    forall k | 0 <= k < |Codes| ensures !Contains(error, Codes[k]) {
      assert |Codes[k]| >= 13;
    }
  }

  /** An Error whose message is empty leaves no banner at all. */
  lemma EmptyMessageShowsNothing(s: State)
    ensures ShownError(HandleSubmit(s, Err(Error(""))).state).None?
  {
  }
}

=== FILE: organizations.dfy ===
/** The organization-management screen: the search and status filter over
    the loaded organizations, and the local list updates that follow a
    successful add, save or delete. */
module Organizations {
  import opened Wrappers
  import opened Strings
  import opened Seqs

  datatype OrgStatus = Active | Inactive | Suspended

  /** The status dropdown: `'all'` or one status. */
  datatype StatusFilter = AllStatuses | Only(status: OrgStatus)

  /** An organization document; `createdAt` is in whole seconds. */
  datatype Organization = Organization(
    id: string,
    name: string,
    status: OrgStatus,
    createdAt: int,
    description: Option<string>,
    contactEmail: Option<string>,
    userCount: Option<int>,
    projectCount: Option<int>)

  /** The add form's raw field values. */
  datatype NewOrgForm = NewOrgForm(name: string, description: string, contactEmail: string, status: OrgStatus)

  /** The fields a write stores. */
  datatype OrgFields = OrgFields(name: string, status: OrgStatus, description: Option<string>, contactEmail: Option<string>)

  /** A Firestore write the screen issues. */
  datatype Write =
    | AddOrg(fields: OrgFields, createdAt: int)
    | UpdateOrg(id: string, fields: OrgFields)
    | DeleteOrg(id: string)

  datatype State = State(
    organizations: seq<Organization>,
    selected: Option<Organization>,
    editing: Option<Organization>,
    adding: bool,
    newOrg: NewOrgForm,
    searchTerm: string,
    filter: StatusFilter)

  /** A handler's resulting state and the writes it attempted. */
  datatype Handled = Handled(state: State, writes: seq<Write>)

  /** The form after a reset. */
  const EmptyForm := NewOrgForm("", "", "", Active)

  /** The search term occurs, ignoring case, in the name or in a present
      description or contact email. */
  predicate MatchesSearch(o: Organization, term: string) {
    var t := Lower(term);
    Contains(Lower(o.name), t) ||
    (o.description.Some? && Contains(Lower(o.description.value), t)) ||
    (o.contactEmail.Some? && Contains(Lower(o.contactEmail.value), t))
  }

  predicate MatchesStatus(o: Organization, filter: StatusFilter) {
    filter.AllStatuses? || o.status == filter.status
  }

  predicate Shown(o: Organization, term: string, filter: StatusFilter) {
    MatchesSearch(o, term) && MatchesStatus(o, filter)
  }

  /** `filteredOrganizations`: the organizations that match both the search
      term and the status filter, in list order. */
  function FilteredOrganizations(orgs: seq<Organization>, term: string, filter: StatusFilter): (r: seq<Organization>)
    ensures IsSubsequence(r, orgs)
    ensures forall i :: 0 <= i < |r| ==> Shown(r[i], term, filter)
    ensures forall i :: 0 <= i < |orgs| ==> (orgs[i] in r <==> Shown(orgs[i], term, filter))
    ensures |r| == Count(orgs, o => Shown(o, term, filter))
  {
    CountIsFilterLength(orgs, o => Shown(o, term, filter));
    Filter(orgs, o => Shown(o, term, filter))
  }

  /** With an empty term and `'all'`, nothing is filtered out. */
  lemma EmptySearchShowsAll(orgs: seq<Organization>)
    ensures FilteredOrganizations(orgs, "", AllStatuses) == orgs
  {
    forall i | 0 <= i < |orgs| ensures Shown(orgs[i], "", AllStatuses) {
      ContainsEmpty(Lower(orgs[i].name));
    }
    FilterAll(orgs, o => Shown(o, "", AllStatuses));
  }

  /** The search ignores case in the term as well. */
  lemma SearchIgnoresTermCase(orgs: seq<Organization>, term: string, filter: StatusFilter)
    ensures FilteredOrganizations(orgs, Lower(term), filter) == FilteredOrganizations(orgs, term, filter)
  {
    LowerIdempotent(term);
    FilterCongruent(orgs, o => Shown(o, Lower(term), filter), o => Shown(o, term, filter));
  }

  /** Narrowing the status filter never shows more organizations. */
  lemma StatusFilterNarrows(orgs: seq<Organization>, term: string, status: OrgStatus)
    ensures |FilteredOrganizations(orgs, term, Only(status))| <= |FilteredOrganizations(orgs, term, AllStatuses)|
  {
    CountIsFilterLength(orgs, o => Shown(o, term, Only(status)));
    CountIsFilterLength(orgs, o => Shown(o, term, AllStatuses));
    CountMonotone(orgs, o => Shown(o, term, Only(status)), o => Shown(o, term, AllStatuses));
  }

  /** `trim() || undefined`. */
  function OptionalText(s: string): (r: Option<string>)
    ensures r == None <==> Blank(s)
    ensures r.Some? ==> r.value == Trim(s) && Trimmed(r.value) && r.value != ""
  {
    var t := Trim(s);
    if t == [] then None else Some(t)
  }

  /** The fields an add stores: the name trimmed, the optional texts trimmed
      with empty dropped, the chosen status. */
  function NewFields(form: NewOrgForm): OrgFields {
    OrgFields(Trim(form.name), form.status, OptionalText(form.description), OptionalText(form.contactEmail))
  }

  /** Whether Firestore accepts the fields. The database is created
      without `ignoreUndefinedProperties`, so a write that carries an
      `undefined` value is rejected before anything is stored; an absent
      optional text is such a value. */
  predicate Storable(f: OrgFields) {
    f.description.Some? && f.contactEmail.Some?
  }

  /** The organization a successful add appends. */
  function Added(form: NewOrgForm, id: string, now: int): Organization {
    var f := NewFields(form);
    Organization(id, f.name, f.status, now, f.description, f.contactEmail, None, None)
  }

  /** `handleAdd`: with a database and a non-blank name, write the normalised
      organization; when the write yields an id (`created`), append it and
      reset the form. A blank name writes nothing; a failed write changes
      nothing, and so does a write Firestore rejects because a blank
      description or contact email became `undefined`. */
  function HandleAdd(s: State, ready: bool, now: int, created: Option<string>): (r: Handled)
    ensures !ready || Blank(s.newOrg.name) ==> r == Handled(s, [])
    ensures ready && !Blank(s.newOrg.name) ==>
      |r.writes| == 1 && r.writes[0].AddOrg? && r.writes[0].createdAt == now &&
      var f := r.writes[0].fields;
      f.name == Trim(s.newOrg.name) && f.name != "" && f.status == s.newOrg.status &&
      f.description == OptionalText(s.newOrg.description) &&
      f.contactEmail == OptionalText(s.newOrg.contactEmail)
    ensures created.None? ==> r.state == s
    ensures Blank(s.newOrg.description) || Blank(s.newOrg.contactEmail) ==> r.state == s
    ensures ready && !Blank(s.newOrg.name) && !Blank(s.newOrg.description) &&
            !Blank(s.newOrg.contactEmail) && created.Some? ==>
      var o := r.state.organizations;
      |o| == |s.organizations| + 1 && o[..|s.organizations|] == s.organizations &&
      var f := r.writes[0].fields;
      o[|s.organizations|] ==
        Organization(created.value, f.name, f.status, now, f.description, f.contactEmail, None, None) &&
      Trimmed(o[|s.organizations|].name) && r.state.newOrg == EmptyForm && !r.state.adding
    ensures r.state == s.(organizations := r.state.organizations, newOrg := r.state.newOrg, adding := r.state.adding)
  {
    if !ready || Blank(s.newOrg.name) then Handled(s, [])
    else
      var write := AddOrg(NewFields(s.newOrg), now);
      if !Storable(write.fields) then Handled(s, [write])
      else match created
      case None => Handled(s, [write])
      case Some(id) =>
        Handled(s.(organizations := s.organizations + [Added(s.newOrg, id, now)],
                   newOrg := EmptyForm, adding := false), [write])
  }

  /** `handleEdit`: start editing a copy and select the organization. */
  function HandleEdit(s: State, org: Organization): (r: State)
    ensures r.editing == Some(org) && r.selected == Some(org)
    ensures r.organizations == s.organizations
  {
    s.(editing := Some(org), selected := Some(org))
  }

  /** Every entry with the edited id becomes the edited copy. */
  function ReplaceById(orgs: seq<Organization>, edited: Organization): (r: seq<Organization>)
    ensures |r| == |orgs|
    ensures forall i :: 0 <= i < |orgs| ==> r[i] == (if orgs[i].id == edited.id then edited else orgs[i])
  {
    seq(|orgs|, i requires 0 <= i < |orgs| => if orgs[i].id == edited.id then edited else orgs[i])
  }

  /** The fields a save writes. */
  function SavedFields(o: Organization): OrgFields {
    OrgFields(o.name, o.status, o.description, o.contactEmail)
  }

  /** `handleSave`: with an edit in progress and a database, write the four
      editable fields; when the write commits, replace the edited entry and
      close the editor and the selection. The fields are sent as they are,
      so an organization without a description or contact email is
      rejected and nothing changes. */
  function HandleSave(s: State, ready: bool, committed: bool): (r: Handled)
    ensures s.editing.None? || !ready ==> r == Handled(s, [])
    ensures s.editing.Some? && ready ==>
      r.writes == [UpdateOrg(s.editing.value.id, SavedFields(s.editing.value))]
    ensures !committed ==> r.state == s
    ensures s.editing.Some? && !Storable(SavedFields(s.editing.value)) ==> r.state == s
    ensures s.editing.Some? && ready && committed && Storable(SavedFields(s.editing.value)) ==>
      var e := s.editing.value;
      |r.state.organizations| == |s.organizations| &&
      (forall i :: 0 <= i < |s.organizations| && s.organizations[i].id != e.id ==>
        r.state.organizations[i] == s.organizations[i]) &&
      (forall i :: 0 <= i < |s.organizations| && s.organizations[i].id == e.id ==>
        r.state.organizations[i] == e) &&
      r.state.editing.None? && r.state.selected.None?
    ensures r.state == s.(organizations := r.state.organizations, editing := r.state.editing, selected := r.state.selected)
  {
    if s.editing.None? || !ready then Handled(s, [])
    else
      var e := s.editing.value;
      var write := UpdateOrg(e.id, SavedFields(e));
      if !committed || !Storable(write.fields) then Handled(s, [write])
      else Handled(s.(organizations := ReplaceById(s.organizations, e), editing := None, selected := None), [write])
  }

  /** The ids of a list, in order. */
  function Ids(orgs: seq<Organization>): seq<string> {
    seq(|orgs|, i requires 0 <= i < |orgs| => orgs[i].id)
  }

  /** Saving keeps the list's ids, so it never adds or drops an
      organization. */
  lemma SaveKeepsIds(s: State, ready: bool, committed: bool)
    ensures Ids(HandleSave(s, ready, committed).state.organizations) == Ids(s.organizations)
  {
  }

  predicate HasId(o: Organization, id: string) {
    o.id == id
  }

  /** The list without the organizations carrying this id. */
  function WithoutId(orgs: seq<Organization>, id: string): (r: seq<Organization>)
    ensures IsSubsequence(r, orgs)
    ensures forall i :: 0 <= i < |r| ==> r[i].id != id
    ensures forall i :: 0 <= i < |orgs| && orgs[i].id != id ==> orgs[i] in r
  {
    Filter(orgs, o => !HasId(o, id))
  }

  /** `handleDelete(orgId)`: with a database and the user's confirmation,
      delete the document; when that commits, drop the entries with that id
      and, if the selection was that organization, close selection and
      editor. */
  function HandleDelete(s: State, orgId: string, ready: bool, confirmed: bool, committed: bool): (r: Handled)
    ensures !ready || !confirmed ==> r == Handled(s, [])
    ensures ready && confirmed ==> r.writes == [DeleteOrg(orgId)]
    ensures !committed ==> r.state == s
    ensures ready && confirmed && committed ==>
      r.state.organizations == WithoutId(s.organizations, orgId) &&
      |r.state.organizations| == |s.organizations| - Count(s.organizations, o => HasId(o, orgId)) &&
      (s.selected.Some? && s.selected.value.id == orgId ==> r.state.selected.None? && r.state.editing.None?) &&
      (s.selected.None? || s.selected.value.id != orgId ==>
        r.state.selected == s.selected && r.state.editing == s.editing)
    ensures r.state == s.(organizations := r.state.organizations, selected := r.state.selected, editing := r.state.editing)
  {
    if !ready || !confirmed then Handled(s, [])
    else
      var write := DeleteOrg(orgId);
      if !committed then Handled(s, [write])
      else
        var orgs := WithoutId(s.organizations, orgId);
        CountRemoved(s.organizations, orgId);
        if s.selected.Some? && s.selected.value.id == orgId then
          Handled(s.(organizations := orgs, selected := None, editing := None), [write])
        else
          Handled(s.(organizations := orgs), [write])
  }

  /** Removing an id drops exactly as many entries as carry it. */
  lemma {:induction false} CountRemoved(orgs: seq<Organization>, id: string)
    ensures |WithoutId(orgs, id)| == |orgs| - Count(orgs, o => HasId(o, id))
  {
    CountIsFilterLength(orgs, o => !HasId(o, id));
    CountDisjoint(orgs, o => HasId(o, id), o => !HasId(o, id));
    assert forall i :: 0 <= i < |orgs| ==> (o => HasId(o, id) || !HasId(o, id))(orgs[i]);
  }

  /** Deleting an organization just added under a fresh id gives back the
      list as it was before the add. */
  lemma AddThenDelete(s: State, now: int, id: string)
    requires !Blank(s.newOrg.name) && !Blank(s.newOrg.description) && !Blank(s.newOrg.contactEmail)
    requires forall i :: 0 <= i < |s.organizations| ==> s.organizations[i].id != id
    ensures var added := HandleAdd(s, true, now, Some(id)).state;
      HandleDelete(added, id, true, true, true).state.organizations == s.organizations
  {
    var o := Added(s.newOrg, id, now);
    assert Storable(NewFields(s.newOrg));
    var added := HandleAdd(s, true, now, Some(id)).state;
    assert added.organizations == s.organizations + [o];
    FilterAppend(s.organizations, [o], x => !HasId(x, id));
    FilterAll(s.organizations, x => !HasId(x, id));
  }

  /** The form as it first appears, and as every reset leaves it, can never
      add an organization: its empty description becomes `undefined`,
      which Firestore rejects, whatever name is typed. */
  lemma DefaultFormNeverAdds(s: State, ready: bool, now: int, created: Option<string>, name: string, status: OrgStatus)
    requires s.newOrg == EmptyForm.(name := name, status := status)
    ensures HandleAdd(s, ready, now, created).state == s
  {
    assert Blank(s.newOrg.description);
  }

  /** Only an organization stored with both optional texts can be saved:
      a save commits its edit exactly when both are present. */
  lemma SaveNeedsBothTexts(s: State, e: Organization)
    requires s.editing == Some(e)
    ensures HandleSave(s, true, true).state.editing.None? <==> e.description.Some? && e.contactEmail.Some?
  {
  }
}

=== FILE: principals.dfy ===
/** The identity provider's principal records, seen as a store the privileged
    callables read and write. The provider keys records by uid and keeps uids
    and emails unique; the store is a sequence with that invariant (`Valid`),
    in the order the provider lists it. */
module Principals {
  import opened Wrappers
  import opened Js

  datatype Metadata = Metadata(
    creationTime: string,
    lastSignInTime: Option<string>,
    lastRefreshTime: Option<string>)

  /** One principal. `displayName` and `lastRefreshTime` stand for the
      record fields that the callables never hand out. */
  datatype Principal = Principal(
    uid: string,
    email: Option<string>,
    emailVerified: bool,
    disabled: bool,
    displayName: Option<string>,
    customClaims: Option<Object>,
    metadata: Metadata)

  type Store = seq<Principal>

  predicate UniqueUids(st: Store) {
    forall i, j :: 0 <= i < j < |st| ==> st[i].uid != st[j].uid
  }

  predicate UniqueEmails(st: Store) {
    forall i, j :: 0 <= i < j < |st| && st[i].email.Some? ==> st[i].email != st[j].email
  }

  predicate Valid(st: Store) {
    UniqueUids(st) && UniqueEmails(st)
  }

  /** The public projection of a record handed to clients: uid, email,
      verification and disabled flags, custom claims, and the two metadata
      timestamps. */
  datatype PublicMetadata = PublicMetadata(creationTime: string, lastSignInTime: Option<string>)

  datatype UserDetails = UserDetails(
    uid: string,
    email: Option<string>,
    emailVerified: bool,
    disabled: bool,
    customClaims: Option<Object>,
    metadata: PublicMetadata)

  function Details(p: Principal): UserDetails {
    UserDetails(p.uid, p.email, p.emailVerified, p.disabled, p.customClaims,
                PublicMetadata(p.metadata.creationTime, p.metadata.lastSignInTime))
  }

  /** The projection ignores the fields it does not hand out, and keeps every
      field it does. */
  lemma DetailsProjection(p: Principal, q: Principal)
    ensures Details(p) == Details(q) <==>
      p.uid == q.uid && p.email == q.email && p.emailVerified == q.emailVerified &&
      p.disabled == q.disabled && p.customClaims == q.customClaims &&
      p.metadata.creationTime == q.metadata.creationTime &&
      p.metadata.lastSignInTime == q.metadata.lastSignInTime
  {
  }

  /** The provider's lookup by email: the position of the record with that
      email, if any. */
  function FindByEmail(st: Store, email: string): (r: Option<nat>)
    ensures r.Some? ==> r.value < |st| && st[r.value].email == Some(email)
    ensures r.None? <==> forall i :: 0 <= i < |st| ==> st[i].email != Some(email)
  {
    if st == [] then None
    else if st[0].email == Some(email) then Some(0)
    else match FindByEmail(st[1..], email)
      case None => None
      case Some(k) => Some(k + 1)
  }

  /** The provider's lookup by uid. */
  function FindByUid(st: Store, uid: string): (r: Option<nat>)
    ensures r.Some? ==> r.value < |st| && st[r.value].uid == uid
    ensures r.None? <==> forall i :: 0 <= i < |st| ==> st[i].uid != uid
  {
    if st == [] then None
    else if st[0].uid == uid then Some(0)
    else match FindByUid(st[1..], uid)
      case None => None
      case Some(k) => Some(k + 1)
  }

  /** In a valid store a uid names one record. */
  lemma UidDeterminesRecord(st: Store, i: nat, j: nat)
    requires Valid(st) && i < |st| && j < |st| && st[i].uid == st[j].uid
    ensures i == j
  {
  }

  /** In a valid store an email names one record. */
  lemma EmailDeterminesRecord(st: Store, i: nat, j: nat)
    requires Valid(st) && i < |st| && j < |st| && st[i].email.Some? && st[i].email == st[j].email
    ensures i == j
  {
  }

  /** `after` is `before` with the record whose uid is `uid` changed by
      `change`, and every other record as it was. */
  predicate ChangedOnly(before: Store, after: Store, uid: string, change: Principal -> Principal) {
    |after| == |before| &&
    forall i :: 0 <= i < |before| ==>
      after[i] == (if before[i].uid == uid then change(before[i]) else before[i])
  }

  /** Replace the record at `i` by `p`, which keeps its uid and email. */
  function Update(st: Store, i: nat, p: Principal): (r: Store)
    requires i < |st| && p.uid == st[i].uid && p.email == st[i].email
    ensures Valid(st) ==> Valid(r)
    ensures |r| == |st|
    ensures forall k :: 0 <= k < |st| ==> r[k].uid == st[k].uid && r[k].email == st[k].email
  {
    st[i := p]
  }

  /** Writing to the record found for `uid` changes only that record. */
  lemma UpdateChangesOnly(st: Store, i: nat, change: Principal -> Principal)
    requires Valid(st) && i < |st|
    requires change(st[i]).uid == st[i].uid && change(st[i]).email == st[i].email
    ensures ChangedOnly(st, Update(st, i, change(st[i])), st[i].uid, change)
  {
    var r := Update(st, i, change(st[i]));
    forall k | 0 <= k < |st|
      ensures r[k] == (if st[k].uid == st[i].uid then change(st[k]) else st[k])
    {
      if st[k].uid == st[i].uid {
        UidDeterminesRecord(st, i, k);
      }
    }
  }

  /** Lookups by email see the same records after an update that keeps
      emails. */
  lemma {:induction false} FindByEmailStable(st: Store, st': Store, email: string)
    requires |st'| == |st|
    requires forall k :: 0 <= k < |st| ==> st'[k].email == st[k].email
    ensures FindByEmail(st', email) == FindByEmail(st, email)
  {
    if st != [] {
      FindByEmailStable(st[1..], st'[1..], email);
    }
  }

  /** Lookups by uid see the same records after an update that keeps uids. */
  lemma {:induction false} FindByUidStable(st: Store, st': Store, uid: string)
    requires |st'| == |st|
    requires forall k :: 0 <= k < |st| ==> st'[k].uid == st[k].uid
    ensures FindByUid(st', uid) == FindByUid(st, uid)
  {
    if st != [] {
      FindByUidStable(st[1..], st'[1..], uid);
    }
  }
}

=== FILE: protected_page.dfy ===
/** The protected dashboard: which projects a signed-in user sees, the
    organization count beside them, and the stat cards computed from the
    list. */
module ProtectedPage {
  import opened Wrappers
  import opened Js
  import opened Seqs
  import opened Firestore
  import opened AdminAuth

  /** A project as the page lists it: the document id and its fields. */
  datatype Project = Project(id: string, name: string, status: string, description: Option<string>)

  function ToProject(d: ProjectDoc): Project {
    Project(d.id, d.name, d.status, d.description)
  }

  /** `snapshot.docs.map(doc => ({ id: doc.id, ...doc.data() }))`. */
  function ToProjects(docs: seq<ProjectDoc>): (r: seq<Project>)
    ensures |r| == |docs|
    ensures forall i :: 0 <= i < |docs| ==> r[i] == ToProject(docs[i])
  {
    seq(|docs|, i requires 0 <= i < |docs| => ToProject(docs[i]))
  }

  datatype State = State(projects: seq<Project>, projectsLoading: bool, organizationsCount: Option<nat>)

  /** The page's state before any fetch. */
  const Initial := State([], true, None)

  /** The listed projects of a project query; a failed query lists none. */
  function Listed(snap: Reads, q: Query): seq<Project> {
    match Projects(snap, q)
    case None => []
    case Some(docs) => ToProjects(docs)
  }

  /** `fetchProjects`: an admin sees every project and the size of the
      organizations collection; a member sees the projects of their
      organization and a count of 1; a member without an organization sees
      no projects and a count of 1; a failed user read shows no projects
      and keeps the count. Loading ends in every case. */
  function FetchProjects(s: State, ready: bool, user: User, refreshed: Result<Object, Thrown>, snap: Reads): (r: State)
    ensures !ready ==> r == s
    ensures ready ==> !r.projectsLoading
    ensures ready && CheckIsAdmin(Some(user), refreshed).isAdmin ==>
      r.organizationsCount == OrganizationsSize(snap) && r.projects == Listed(snap, AllProjects)
    ensures ready && !CheckIsAdmin(Some(user), refreshed).isAdmin ==>
      match MembershipOf(snap, user.uid)
      case ReadFailed => r.projects == [] && r.organizationsCount == s.organizationsCount
      case NoOrganization => r.projects == [] && r.organizationsCount == Some(1)
      case Member(o) => r.projects == Listed(snap, OrgProjects(o)) && r.organizationsCount == Some(1)
  {
    if !ready then s
    else if CheckIsAdmin(Some(user), refreshed).isAdmin then
      State(Listed(snap, AllProjects), false, OrganizationsSize(snap))
    else match MembershipOf(snap, user.uid)
      case ReadFailed => s.(projects := [], projectsLoading := false)
      case NoOrganization => State([], false, Some(1))
      case Member(o) => State(Listed(snap, OrgProjects(o)), false, Some(1))
  }

  /** Everything a member is shown is a project of their own organization,
      and all of those are shown when the read succeeds. */
  lemma MemberSeesOwnOrganization(s: State, ready: bool, user: User, refreshed: Result<Object, Thrown>, snap: Reads, o: string)
    requires ready && !CheckIsAdmin(Some(user), refreshed).isAdmin
    requires MembershipOf(snap, user.uid) == Member(o)
    ensures var shown := FetchProjects(s, ready, user, refreshed, snap).projects;
      (forall i :: 0 <= i < |shown| ==>
        exists d :: d in snap.db.projects && d.orgId == o && shown[i] == ToProject(d)) &&
      (OrgProjects(o) !in snap.failing ==> |shown| == Count(snap.db.projects, SelectsProject(OrgProjects(o))))
  {
    var shown := FetchProjects(s, ready, user, refreshed, snap).projects;
    if OrgProjects(o) !in snap.failing {
      var docs := Projects(snap, OrgProjects(o)).value;
      forall i | 0 <= i < |shown|
        ensures exists d :: d in snap.db.projects && d.orgId == o && shown[i] == ToProject(d)
      {
        assert SelectsProject(OrgProjects(o))(docs[i]);
        assert shown[i] == ToProject(docs[i]);
      }
      CountIsFilterLength(snap.db.projects, SelectsProject(OrgProjects(o)));
    }
  }

  /** An admin is shown every project document, in snapshot order. */
  lemma AdminSeesEverything(s: State, user: User, refreshed: Result<Object, Thrown>, snap: Reads)
    requires CheckIsAdmin(Some(user), refreshed).isAdmin
    requires AllProjects !in snap.failing
    ensures FetchProjects(s, true, user, refreshed, snap).projects == ToProjects(snap.db.projects)
  {
    FilterAll(snap.db.projects, SelectsProject(AllProjects));
  }

  // ---- Stat cards ----

  function HasStatus(status: string): Project -> bool {
    (p: Project) => p.status == status
  }

  /** The Active card: projects whose status is exactly "Active". */
  function ActiveCard(projects: seq<Project>): (r: nat)
    ensures r == |Filter(projects, HasStatus("Active"))|
    ensures r == 0 <==> forall i :: 0 <= i < |projects| ==> projects[i].status != "Active"
  {
    CountIsFilterLength(projects, HasStatus("Active"));
    Count(projects, HasStatus("Active"))
  }

  /** The Review card: projects whose status is exactly "Review". */
  function ReviewCard(projects: seq<Project>): (r: nat)
    ensures r == |Filter(projects, HasStatus("Review"))|
    ensures r == 0 <==> forall i :: 0 <= i < |projects| ==> projects[i].status != "Review"
  {
    CountIsFilterLength(projects, HasStatus("Review"));
    Count(projects, HasStatus("Review"))
  }

  /** The Total card: every listed project, whatever its status. */
  function TotalCard(projects: seq<Project>): (r: nat)
    ensures r == |projects|
    ensures forall status :: Count(projects, HasStatus(status)) <= r
  {
    |projects|
  }

  /** The Recent list: `projects.slice(0, 5)`. */
  function Recent(projects: seq<Project>): (r: seq<Project>)
    ensures |r| == if |projects| < 5 then |projects| else 5
    ensures forall i :: 0 <= i < |r| ==> r[i] == projects[i]
  {
    if |projects| <= 5 then projects else projects[..5]
  }

  /** The Active and Review cards together never exceed the Total card. */
  lemma CardsWithinTotal(projects: seq<Project>)
    ensures ActiveCard(projects) + ReviewCard(projects) <= TotalCard(projects)
  {
    CountDisjoint(projects, HasStatus("Active"), HasStatus("Review"));
  }
}

=== FILE: seqs.dfy ===
/** Order-preserving selection from sequences (`Array.prototype.filter`) and
    counting (`filter(...).length`). */
module Seqs {

  /** `sub` is `xs` with some elements left out and the rest in their order. */
  predicate IsSubsequence<T(==)>(sub: seq<T>, xs: seq<T>)
    decreases |xs|
  {
    if sub == [] then true
    else if xs == [] then false
    else if sub[0] == xs[0] then IsSubsequence(sub[1..], xs[1..])
    else IsSubsequence(sub, xs[1..])
  }

  /** `xs.filter(keep)`. */
  function Filter<T(==)>(xs: seq<T>, keep: T -> bool): (r: seq<T>)
    ensures |r| <= |xs|
    ensures IsSubsequence(r, xs)
    ensures forall i :: 0 <= i < |r| ==> keep(r[i]) && r[i] in xs
    ensures forall i :: 0 <= i < |xs| && keep(xs[i]) ==> xs[i] in r
  {
    if xs == [] then []
    else if keep(xs[0]) then [xs[0]] + Filter(xs[1..], keep)
    else Filter(xs[1..], keep)
  }

  /** `xs.filter(keep).length`. */
  function Count<T(==)>(xs: seq<T>, keep: T -> bool): (n: nat)
    ensures n <= |xs|
    ensures n == 0 <==> forall i :: 0 <= i < |xs| ==> !keep(xs[i])
    ensures n == |xs| <==> forall i :: 0 <= i < |xs| ==> keep(xs[i])
  {
    if xs == [] then 0
    else (if keep(xs[0]) then 1 else 0) + Count(xs[1..], keep)
  }

  /** Counting is the length of the filtered sequence. */
  lemma {:induction false} CountIsFilterLength<T>(xs: seq<T>, keep: T -> bool)
    ensures Count(xs, keep) == |Filter(xs, keep)|
  {
    if xs != [] {
      CountIsFilterLength(xs[1..], keep);
    }
  }

  /** A filter that keeps everything is the identity. */
  lemma {:induction false} FilterAll<T>(xs: seq<T>, keep: T -> bool)
    requires forall i :: 0 <= i < |xs| ==> keep(xs[i])
    ensures Filter(xs, keep) == xs
  {
    if xs != [] {
      FilterAll(xs[1..], keep);
    }
  }

  /** Counting with a weaker predicate never gives less. */
  lemma {:induction false} CountMonotone<T>(xs: seq<T>, p: T -> bool, q: T -> bool)
    requires forall i :: 0 <= i < |xs| ==> p(xs[i]) ==> q(xs[i])
    ensures Count(xs, p) <= Count(xs, q)
  {
    if xs != [] {
      CountMonotone(xs[1..], p, q);
    }
  }

  /** Counting two exclusive predicates separately is counting their union. */
  lemma {:induction false} CountDisjoint<T>(xs: seq<T>, p: T -> bool, q: T -> bool)
    requires forall i :: 0 <= i < |xs| ==> !(p(xs[i]) && q(xs[i]))
    ensures Count(xs, p) + Count(xs, q) == Count(xs, x => p(x) || q(x))
  {
    if xs != [] {
      CountDisjoint(xs[1..], p, q);
    }
  }

  /** Filtering distributes over concatenation. */
  lemma {:induction false} FilterAppend<T>(xs: seq<T>, ys: seq<T>, keep: T -> bool)
    ensures Filter(xs + ys, keep) == Filter(xs, keep) + Filter(ys, keep)
  {
    if xs != [] {
      assert (xs + ys)[1..] == xs[1..] + ys;
      FilterAppend(xs[1..], ys, keep);
    } else {
      assert xs + ys == ys;
    }
  }

  /** Filters that agree on every element select the same elements. */
  lemma {:induction false} FilterCongruent<T>(xs: seq<T>, p: T -> bool, q: T -> bool)
    requires forall i :: 0 <= i < |xs| ==> p(xs[i]) == q(xs[i])
    ensures Filter(xs, p) == Filter(xs, q)
  {
    if xs != [] {
      FilterCongruent(xs[1..], p, q);
    }
  }
}

=== FILE: strings.dfy ===
/** The handful of string operations the screens rely on: `trim`,
    `toLowerCase`, `includes`, `startsWith` and number-to-text. Characters are
    compared one by one; lower-casing is ASCII only and the whitespace set is
    the ASCII one plus the no-break space. */
module Strings {

  /** Whitespace removed by `String.prototype.trim` (the ASCII subset). */
  predicate IsSpace(c: char) {
    c == ' ' || c == '\t' || c == '\n' || c == '\r' ||
    c == '\U{000B}' || c == '\U{000C}' || c == '\U{00A0}'
  }

  /** Every character of `s` is whitespace (so the empty string is blank). */
  predicate Blank(s: string) {
    forall i :: 0 <= i < |s| ==> IsSpace(s[i])
  }

  /** Neither end of `s` is whitespace. */
  predicate Trimmed(s: string) {
    s == [] || (!IsSpace(s[0]) && !IsSpace(s[|s| - 1]))
  }

  /** Drops leading whitespace. */
  function TrimStart(s: string): (r: string)
    ensures |r| <= |s| && r == s[|s| - |r|..]
    ensures r == [] || !IsSpace(r[0])
    ensures forall i :: 0 <= i < |s| - |r| ==> IsSpace(s[i])
  {
    if s == [] || !IsSpace(s[0]) then s else TrimStart(s[1..])
  }

  /** Drops trailing whitespace. */
  function TrimEnd(s: string): (r: string)
    ensures |r| <= |s| && r == s[..|r|]
    ensures r == [] || !IsSpace(r[|r| - 1])
    ensures forall i :: |r| <= i < |s| ==> IsSpace(s[i])
  {
    if s == [] || !IsSpace(s[|s| - 1]) then s else TrimEnd(s[..|s| - 1])
  }

  /** `s.trim()`: an infix of `s` with no whitespace at either end; it is
      empty exactly when `s` is blank. */
  function Trim(s: string): (r: string)
    ensures Trimmed(r)
    ensures |r| <= |s|
    ensures OccursAt(s, r, TrimOffset(s))
    ensures Blank(s[..TrimOffset(s)]) && Blank(s[TrimOffset(s) + |r|..])
    ensures Blank(s) <==> r == []
  {
    TrimShape(s);
    TrimEndsBlank(s);
    TrimEnd(TrimStart(s))
  }

  /** What `trim` cuts off at either end is whitespace. */
  lemma TrimEndsBlank(s: string)
    ensures var k := TrimOffset(s);
      k + |TrimEnd(TrimStart(s))| <= |s| &&
      Blank(s[..k]) && Blank(s[k + |TrimEnd(TrimStart(s))|..])
  {
    var a := TrimStart(s);
    var r := TrimEnd(a);
    var k := |s| - |a|;
    assert a == s[k..];
    var head := s[..k];
    forall i | 0 <= i < |head| ensures IsSpace(head[i]) {
      assert head[i] == s[i];
    }
    var tail := s[k + |r|..];
    forall i | 0 <= i < |tail| ensures IsSpace(tail[i]) {
      assert tail[i] == a[|r| + i];
    }
  }

  /** Number of leading whitespace characters `trim` removes. */
  function TrimOffset(s: string): nat {
    |s| - |TrimStart(s)|
  }

  /** Where the two halves of `Trim` cut, and why an empty result means blank. */
  lemma TrimShape(s: string)
    ensures OccursAt(s, TrimEnd(TrimStart(s)), TrimOffset(s))
    ensures Blank(s) <==> TrimEnd(TrimStart(s)) == []
  {
    TrimCut(s);
    TrimBlank(s);
    TrimEmpty(s);
  }

  lemma TrimCut(s: string)
    ensures OccursAt(s, TrimEnd(TrimStart(s)), TrimOffset(s))
  {
    var a := TrimStart(s);
    var r := TrimEnd(a);
    PrefixOfSuffix(s, |s| - |a|, |r|);
  }

  /** A prefix of a suffix is an infix. */
  lemma PrefixOfSuffix(s: string, k: nat, n: nat)
    requires k + n <= |s|
    ensures s[k..][..n] == s[k..k + n]
  {
  }

  lemma TrimBlank(s: string)
    ensures Blank(s) ==> TrimEnd(TrimStart(s)) == []
  {
    var a := TrimStart(s);
    var r := TrimEnd(a);
    var k := |s| - |a|;
    if r != [] {
      PrefixOfSuffix(s, k, |r|);
      assert s[k] == r[0];
    }
  }

  lemma TrimEmpty(s: string)
    ensures TrimEnd(TrimStart(s)) == [] ==> Blank(s)
  {
    var a := TrimStart(s);
    if TrimEnd(a) == [] {
      assert a == [];
    }
  }

  /** Trimming a trimmed string changes nothing. */
  lemma TrimOfTrimmed(s: string)
    requires Trimmed(s)
    ensures Trim(s) == s
  {
  }

  /** `trim` is idempotent. */
  lemma TrimIdempotent(s: string)
    ensures Trim(Trim(s)) == Trim(s)
  {
    TrimOfTrimmed(Trim(s));
  }

  /** ASCII `toLowerCase` on one character. */
  function LowerChar(c: char): char {
    if 'A' <= c <= 'Z' then (c as int + 32) as char else c
  }

  /** `toLowerCase` on a string, character by character. */
  function Lower(s: string): (r: string)
    ensures |r| == |s|
    ensures forall i :: 0 <= i < |s| ==> r[i] == LowerChar(s[i])
    ensures forall i :: 0 <= i < |r| ==> !('A' <= r[i] <= 'Z')
    ensures forall i :: 0 <= i < |s| && !('A' <= s[i] <= 'Z') ==> r[i] == s[i]
  {
    if s == [] then [] else [LowerChar(s[0])] + Lower(s[1..])
  }

  /** Lower-casing twice is lower-casing once. */
  lemma LowerIdempotent(s: string)
    ensures Lower(Lower(s)) == Lower(s)
  {
    assert forall i :: 0 <= i < |s| ==> LowerChar(LowerChar(s[i])) == LowerChar(s[i]);
  }

  /** `s.startsWith(p)`. */
  predicate StartsWith(s: string, p: string) {
    |p| <= |s| && s[..|p|] == p
  }

  /** `s.includes(t)`, by scanning the start positions of `s` one by one. */
  predicate Contains(s: string, t: string)
    ensures StartsWith(s, t) ==> Contains(s, t)
    ensures Contains(s, t) ==> |t| <= |s|
    decreases |s|
  {
    StartsWith(s, t) || (s != [] && Contains(s[1..], t))
  }

  /** `t` occurs in `s` at position `k`. */
  predicate OccursAt(s: string, t: string, k: int) {
    0 <= k && k + |t| <= |s| && s[k..k + |t|] == t
  }

  /** The scan finds `t` exactly when `t` occurs somewhere in `s`. */
  lemma {:induction false} ContainsIffOccurs(s: string, t: string)
    ensures Contains(s, t) <==> exists k :: OccursAt(s, t, k)
    decreases |s|
  {
    if StartsWith(s, t) {
      assert OccursAt(s, t, 0);
    } else if s != [] {
      ContainsIffOccurs(s[1..], t);
      if Contains(s[1..], t) {
        var k :| OccursAt(s[1..], t, k);
        assert s[k + 1..k + 1 + |t|] == s[1..][k..k + |t|];
        assert OccursAt(s, t, k + 1);
      } else {
        forall k | OccursAt(s, t, k) && k > 0 ensures OccursAt(s[1..], t, k - 1) {
          assert s[1..][k - 1..k - 1 + |t|] == s[k..k + |t|];
        }
      }
    }
  }

  /** Every string includes the empty string. */
  lemma ContainsEmpty(s: string)
    ensures Contains(s, "")
  {
    assert StartsWith(s, "");
  }

  /** Decimal digits of a natural number, as `String(n)` prints it. */
  function NatToString(n: nat): (r: string)
    ensures |r| >= 1
    ensures forall i :: 0 <= i < |r| ==> '0' <= r[i] <= '9'
    ensures r[0] == '0' ==> n == 0
    decreases n
  {
    if n < 10 then [DigitChar(n)] else NatToString(n / 10) + [DigitChar(n % 10)]
  }

  function DigitChar(d: nat): (c: char)
    requires d < 10
    ensures '0' <= c <= '9'
  {
    ('0' as int + d) as char
  }

  /** Reads back a string of decimal digits. */
  function ParseNat(s: string): nat
    requires forall i :: 0 <= i < |s| ==> '0' <= s[i] <= '9'
  {
    if s == [] then 0 else ParseNat(s[..|s| - 1]) * 10 + (s[|s| - 1] as int - '0' as int)
  }

  /** Printing a number and reading it back gives the number. */
  lemma {:induction false} NatToStringRoundTrip(n: nat)
    ensures ParseNat(NatToString(n)) == n
    decreases n
  {
    var r := NatToString(n);
    if n >= 10 {
      NatToStringRoundTrip(n / 10);
      assert r[..|r| - 1] == NatToString(n / 10);
    }
  }
}

=== FILE: user_management.dfy ===
/** The user-management screen: loading the first page of users, searching by
    email, toggling a user's disabled flag, and the Admin badge. */
module UserManagement {
  import opened Wrappers
  import opened Js
  import opened Strings
  import opened Principals
  import opened AdminAuth
  import Callables
  import CallableProperties

  datatype State = State(
    users: seq<UserDetails>,
    loading: bool,
    error: Option<string>,
    searchEmail: string,
    searchResult: Option<UserDetails>,
    searchLoading: bool,
    updating: set<string>)

  /** A handler's resulting state and the remote calls it made. */
  datatype Handled = Handled(state: State, calls: seq<RemoteCall>)

  /** The page size the screen asks for. */
  const FirstPageSize := 100

  /** `result.users` of a page reply; any other reply shape, which
      `listAllUsers` never sends, reads as no users. */
  function ReplyUsers(reply: Callables.Reply): seq<UserDetails> {
    if reply.UserList? then reply.users else []
  }

  /** `loadUsers`: ask for the first 100 users and show them, or show the
      error. */
  function LoadUsers(s: State, ready: bool, remote: Remote): (r: Handled)
    ensures ready ==>
      r.calls == [RemoteCall("listAllUsers", map["maxResults" := Num(100), "pageToken" := Undefined])]
    ensures !ready ==> r.calls == [] && r.state.error == Some(NotInitialized)
    ensures !r.state.loading
    ensures var call := AdminAuth.ListAllUsers(ready, Some(FirstPageSize), None, remote);
      (call.result.Ok? ==> r.state.users == ReplyUsers(call.result.value) && r.state.error.None?) &&
      (call.result.Err? ==>
        r.state.users == s.users &&
        r.state.error == Some(ErrorMessageOr(call.result.error, "Failed to load users")))
    ensures r.state == s.(users := r.state.users, loading := false, error := r.state.error)
  {
    var call := AdminAuth.ListAllUsers(ready, Some(FirstPageSize), None, remote);
    match call.result
    case Ok(reply) => Handled(s.(users := ReplyUsers(reply), loading := false, error := None), call.calls)
    case Err(t) =>
      Handled(s.(loading := false, error := Some(ErrorMessageOr(t, "Failed to load users"))), call.calls)
  }

  /** Served by the callable, the screen's first request reaches the
      provider with page size 100 and no page token. */
  lemma LoadUsersPageSize(store: Store, ctx: Callables.CallContext, listUsers: Callables.ListUsers)
    requires Callables.CallerIsAdmin(ctx)
    ensures Callables.ListedFrom(
      Callables.ListAllUsers(store, ctx, map["maxResults" := Num(100), "pageToken" := Undefined], listUsers).result,
      listUsers(store, Num(100), Undefined))
  {
    var data := map["maxResults" := Num(100), "pageToken" := Undefined];
    assert Get(data, "maxResults") == Num(100);
    assert Get(data, "pageToken") == Undefined;
  }

  /** Every entry with this uid gets `disabled`, the rest stay. */
  function SetDisabledWhere(users: seq<UserDetails>, uid: string, disabled: bool): (r: seq<UserDetails>)
    ensures |r| == |users|
    ensures forall i :: 0 <= i < |users| ==>
      r[i] == (if users[i].uid == uid then users[i].(disabled := disabled) else users[i])
  {
    seq(|users|, i requires 0 <= i < |users| =>
      if users[i].uid == uid then users[i].(disabled := disabled) else users[i])
  }

  /** `handleToggleUserStatus(uid, currentDisabled)`: ask to set the flag to
      `!currentDisabled`; on success update the matching list entries and the
      search result if it is the same user; on failure only set the error.
      The uid is no longer "updating" afterwards in both cases. */
  function ToggleUserStatus(s: State, uid: string, currentDisabled: bool, ready: bool, remote: Remote): (r: Handled)
    ensures r.state.updating == s.updating - {uid}
    ensures ready ==>
      r.calls == [RemoteCall("setUserDisabled", map["uid" := Str(uid), "disabled" := Bool(!currentDisabled)])]
    ensures !ready ==>
      r.calls == [] && r.state.users == s.users && r.state.error == Some(NotInitialized)
    ensures var call := AdminAuth.SetUserDisabled(ready, uid, !currentDisabled, remote);
      (call.result.Err? ==>
        r.state == s.(error := Some(ErrorMessageOr(call.result.error, "Failed to update user status")),
                      updating := s.updating - {uid})) &&
      (call.result.Ok? ==>
        |r.state.users| == |s.users| &&
        (forall i :: 0 <= i < |s.users| && s.users[i].uid != uid ==> r.state.users[i] == s.users[i]) &&
        (forall i :: 0 <= i < |s.users| && s.users[i].uid == uid ==>
          r.state.users[i] == s.users[i].(disabled := !currentDisabled)) &&
        (s.searchResult.Some? && s.searchResult.value.uid == uid ==>
          r.state.searchResult == Some(s.searchResult.value.(disabled := !currentDisabled))) &&
        (s.searchResult.None? || s.searchResult.value.uid != uid ==>
          r.state.searchResult == s.searchResult) &&
        r.state.error == s.error)
    ensures r.state == s.(users := r.state.users, searchResult := r.state.searchResult,
                          updating := r.state.updating, error := r.state.error)
  {
    var call := AdminAuth.SetUserDisabled(ready, uid, !currentDisabled, remote);
    var done := s.updating - {uid};
    match call.result
    case Ok(_) =>
      var search := match s.searchResult
        case Some(u) => if u.uid == uid then Some(u.(disabled := !currentDisabled)) else s.searchResult
        case None => None;
      Handled(s.(users := SetDisabledWhere(s.users, uid, !currentDisabled), searchResult := search,
                 updating := done), call.calls)
    case Err(t) =>
      Handled(s.(error := Some(ErrorMessageOr(t, "Failed to update user status")), updating := done),
              call.calls)
  }

  /** Toggling a user and then toggling it back, both calls succeeding,
      restores the list, provided every entry with that uid showed the
      flag the first toggle started from. */
  lemma ToggleTwiceRestores(s: State, uid: string, currentDisabled: bool, ready: bool, remote: Remote, remote': Remote)
    requires AdminAuth.SetUserDisabled(ready, uid, !currentDisabled, remote).result.Ok?
    requires AdminAuth.SetUserDisabled(ready, uid, currentDisabled, remote').result.Ok?
    requires forall i :: 0 <= i < |s.users| && s.users[i].uid == uid ==> s.users[i].disabled == currentDisabled
    ensures var once := ToggleUserStatus(s, uid, currentDisabled, ready, remote).state;
      ToggleUserStatus(once, uid, !currentDisabled, ready, remote').state.users == s.users
  {
    var once := ToggleUserStatus(s, uid, currentDisabled, ready, remote).state;
    var twice := ToggleUserStatus(once, uid, !currentDisabled, ready, remote').state;
    assert |twice.users| == |s.users|;
    forall i | 0 <= i < |s.users| ensures twice.users[i] == s.users[i] {
      if s.users[i].uid == uid {
        assert once.users[i] == s.users[i].(disabled := !currentDisabled);
      }
    }
  }

  /** The text shown when a search fails. */
  const SearchFailed := "User not found or error occurred during search"

  /** `result.data` of a user-details reply; any other reply shape, which
      `getUserByEmail` never sends, reads as no result. */
  function ReplyUser(reply: Callables.Reply): Option<UserDetails> {
    if reply.UserInfo? then Some(reply.user) else None
  }

  /** `handleSearch`: nothing for a blank email; otherwise look the trimmed
      email up and show the user, or clear the result and show a fixed
      error. */
  function HandleSearch(s: State, ready: bool, remote: Remote): (r: Handled)
    ensures Blank(s.searchEmail) ==> r == Handled(s, [])
    ensures !Blank(s.searchEmail) ==>
      var call := AdminAuth.GetUserByEmail(ready, Trim(s.searchEmail), remote);
      !r.state.searchLoading && r.calls == call.calls &&
      (ready ==> r.calls == [RemoteCall("getUserByEmail", map["email" := Str(Trim(s.searchEmail))])]) &&
      (call.result.Err? ==> r.state.searchResult.None? && r.state.error == Some(SearchFailed)) &&
      (call.result.Ok? ==> r.state.searchResult == ReplyUser(call.result.value) && r.state.error == s.error) &&
      r.state.users == s.users
    ensures r.state == s.(searchResult := r.state.searchResult, searchLoading := r.state.searchLoading,
                          error := r.state.error)
  {
    if Blank(s.searchEmail) then Handled(s, [])
    else
      var call := AdminAuth.GetUserByEmail(ready, Trim(s.searchEmail), remote);
      match call.result
      case Ok(reply) => Handled(s.(searchResult := ReplyUser(reply), searchLoading := false), call.calls)
      case Err(_) =>
        Handled(s.(searchResult := None, error := Some(SearchFailed), searchLoading := false), call.calls)
  }

  /** Served by the deployed callables for an admin, a search shows the
      details of the one record with the trimmed email, and when no record
      has that email it clears the result and shows the fixed error. */
  lemma SearchFindsRecord(s: State, st: Store, ctx: Callables.CallContext, listUsers: Callables.ListUsers)
    requires Valid(st) && Callables.CallerIsAdmin(ctx) && !Blank(s.searchEmail)
    ensures var r := HandleSearch(s, true, Serve(st, ctx, listUsers)).state;
      var email := Trim(s.searchEmail);
      (forall i :: 0 <= i < |st| && st[i].email == Some(email) ==>
        r.searchResult == Some(Details(st[i])) && r.error == s.error) &&
      ((forall i :: 0 <= i < |st| ==> st[i].email != Some(email)) ==>
        r.searchResult.None? && r.error == Some(SearchFailed))
  {
    var email := Trim(s.searchEmail);
    var call := AdminAuth.GetUserByEmail(true, email, Serve(st, ctx, listUsers));
    ServedLookup(st, ctx, listUsers, email);
    if call.result.Ok? {
      var k :| 0 <= k < |st| && st[k].email == Some(email) && call.result.value == Callables.UserInfo(Details(st[k]));
      forall i | 0 <= i < |st| && st[i].email == Some(email) ensures i == k {
        EmailDeterminesRecord(st, i, k);
      }
    }
  }

  /** The lookup a search makes, served for an admin: the details of a
      record with that email, or a failure exactly when none has it. */
  lemma ServedLookup(st: Store, ctx: Callables.CallContext, listUsers: Callables.ListUsers, email: string)
    requires Callables.CallerIsAdmin(ctx) && email != ""
    ensures var call := AdminAuth.GetUserByEmail(true, email, Serve(st, ctx, listUsers));
      (call.result.Err? <==> forall i :: 0 <= i < |st| ==> st[i].email != Some(email)) &&
      (call.result.Ok? ==>
        exists k :: 0 <= k < |st| && st[k].email == Some(email) && call.result.value == Callables.UserInfo(Details(st[k])))
  {
    var data := map["email" := Str(email)];
    assert Get(data, "email") == Str(email);
    ServedCall(st, ctx, listUsers, RemoteCall("getUserByEmail", data));
  }

  /** The Admin badge: `customClaims?.admin === true`. */
  predicate AdminBadge(u: UserDetails)
    ensures AdminBadge(u) ==> u.customClaims.Some? && "admin" in u.customClaims.value
  {
    u.customClaims.Some? && Get(u.customClaims.value, "admin") == Bool(true)
  }

  /** The badge applies the server's own admin test to the user's claims. */
  lemma BadgeIsServerTest(u: UserDetails)
    ensures AdminBadge(u) <==> Callables.CallerIsAdmin(Callables.CallContext(u.customClaims))
  {
  }

  /** The badge is stricter than the client's resolver: every badged user
      would resolve as admin, but a truthy non-`true` claim resolves as admin
      without a badge. */
  lemma BadgeStricterThanResolver(u: UserDetails, user: User)
    ensures AdminBadge(u) ==> CheckIsAdmin(Some(user), Ok(u.customClaims.value)).isAdmin
    ensures var v := u.(customClaims := Some(map["admin" := Str("yes")]));
      !AdminBadge(v) && CheckIsAdmin(Some(user), Ok(v.customClaims.value)).isAdmin
  {
    var claims := map["admin" := Str("yes")];
    assert Get(claims, "admin") == Str("yes");
  }

  /** A user just made admin shows the badge when looked up. */
  lemma GrantShowsBadge(st: Store, ctx: Callables.CallContext, data: Object)
    requires Valid(st)
    requires Callables.AddAdminRole(st, ctx, data).result.Ok?
    ensures var found := Callables.GetUserByEmail(Callables.AddAdminRole(st, ctx, data).store, ctx, data).result;
      found.Ok? && ReplyUser(found.value).Some? && AdminBadge(ReplyUser(found.value).value)
  {
    CallableProperties.GrantThenLookup(st, ctx, data);
    assert Get(Callables.AdminClaims(true), "admin") == Bool(true);
  }
}

=== FILE: wrappers.dfy ===
/** Option and Result: the shapes used across the model for "absent" values
    and for operations that either produce a value or fail. */
module Wrappers {

  datatype Option<+T> = None | Some(value: T) {
    function GetOr(default: T): T {
      match this
      case Some(v) => v
      case None => default
    }
  }

  datatype Result<+T, +E> = Ok(value: T) | Err(error: E)
}
